=== FILE: README.md ===
# Destiny kiosk status — vendor availability model

A Dafny model of the core of `destinykioskstatus`, a web service that shows
a Destiny player which vendor and kiosk items they still lack, and whether a
missing item is currently for sale at some other vendor. The model covers:

- the upstream API client: the request headers, the classification of one
  HTTP attempt, and the retry loop (`api/api.go`) — module `Api`;
- the vendor snapshot cache, keyed by vendor hash and served until the
  clock is strictly after the snapshot's declared refresh date — module
  `VendorCache`;
- the union of the items that a list of vendors sells, with the cache
  threaded through the lookups — module `Availability`;
- item descriptions built from failure strings, and the "missing" flag
  taken from unlock statuses — module `ItemStatus`;
- the canonical kiosk status (`src/kiosk/kiosk.go`): the vendor blacklist,
  the for-sale set, the item and category assembly, and the
  "something missing is for sale" roll-up — module `Kiosk`;
- the earlier per-page handler (`handler/vendor.go`), which asks a fixed
  list of selling vendors about each missing item — module `VendorHandler`;
- the oldest handler (`kiosk.go`), with the "owned" flag and the flattened
  character list — module `LegacyKiosk`.

The shared types live in `Destiny` (hashes as unsigned 32-bit values,
vendor snapshots, manifest rows, fatal conditions). `Outcomes` holds
`Option` and `Result`, and `Text` holds `Join`/`Split` with their round
trip.

Go panics are modelled as `Failure` values of the `Fatal` datatype. These
cover a retry policy that gives up, an unparseable refresh date, a failure
index outside the failure strings, and an absent character. The outside
world is a parameter `Env`: the clock (`now`), the timestamp parser
(`parse`), and the upstream vendor fetch (`fetch`). The clock and the fetch
are fixed for one request.

The same algorithms appear in more than one variant.
The description at `handler/vendor.go:115-124` is the same code as
`src/kiosk/kiosk.go:121-130`. The cache at `handler/vendor.go:148-187`
behaves like `src/kiosk/kiosk.go:132-171`. The two differ only in where the
key comes from (`vendor.Hash()` against `vendorDefinition.Hash`) and in
what they log. Both variants use the single `ItemStatus` and
`VendorCache` definitions.

Where the code behaves differently from what the service is described as doing, the model follows the code:

- **Expiry.** An entry is expired only when the clock is strictly after its
  refresh date. At exactly the refresh date the entry is still served.
- **Failure annotation.** The canonical variant lists every failure string
  of the item, one per line. Only the oldest variant uses the first string
  alone.
- **Missing flag.** "Missing" depends only on unlock statuses. An item with
  no failure indexes but an unset status is missing.
- **Poisoned cache entry.** The source stores a fetched snapshot before it
  checks the snapshot's date (see "## Findings"). `VendorCache.GetAsWritten`
  models that order. Every composed pass (`Availability.UnionOfSales`, and
  through it `Kiosk` and `VendorHandler`) uses the corrected
  `VendorCache.Get`.

## Model

| member | source | states |
|---|---|---|
| Api.Classify | api/api.go:75-90 | An attempt succeeds iff there is no transport error, the status is 200, the body decodes, and the envelope's error code is 1. It is a transport error iff the transport failed. It is a "bad message" iff everything else passed but the error code is not 1. |
| Api.Retry | api/api.go:74-98 | At least one attempt and at most `retries + 1` are made, and every attempt before the last one failed. The call succeeds iff the last attempt succeeded, and it then returns that attempt's envelope. When the call fails, every allowed attempt was used and the outcome is fatal. |
| Api.NewGet | api/api.go:50-57 | A GET carries exactly one Authorization value, `Bearer <token>`, no Content-Type, no API key, and no body. |
| Api.NewPost | api/api.go:59-70 | A POST carries exactly one Content-Type value, `application/json`, no Authorization, no API key, and the encoded body. |
| Api.WithApiKey | api/api.go:72-73 | The client's API key is appended to the X-API-Key values. Every other header, the verb, the URL and the body are unchanged. |
| Api.Do | api/api.go:72-99 | The request as sent is the caller's request with the API key appended, and every other header, the verb, the URL and the body unchanged. The outcome is the retry loop's: success iff the last attempt made succeeded, with that attempt's envelope. A failure uses every allowed attempt and is fatal. |
| Api.SendGet | api/api.go:50-57 | A GET that leaves the client carries exactly one API key and one bearer token, no content type and no body. Its outcome is the retry loop's: it returns at the first successful attempt, with that attempt's envelope, and makes no attempt after it; when every allowed attempt fails it is fatal. |
| Api.SendPost | api/api.go:59-70 | A POST that leaves the client carries exactly one API key and the JSON content type, no bearer token, and the encoded body. Its outcome is the retry loop's: it returns at the first successful attempt, with that attempt's envelope, and makes no attempt after it; when every allowed attempt fails it is fatal. |
| VendorCache.IsExpired | src/kiosk/kiosk.go:165-171 | An unparseable refresh date is fatal. Otherwise the result is "expired" iff the refresh date is strictly before the clock. |
| VendorCache.Get | src/kiosk/kiosk.go:138-163 | A failed `get` leaves the cache as it was. A successful `get` leaves the returned snapshot stored under the requested hash, and nothing else differs. |
| VendorCache.GetContract | src/kiosk/kiosk.go:138-163 | Hit: a fresh entry is returned without a fetch. A stored entry whose date does not parse is fatal before any fetch. A fetch happens iff the entry is absent or expired. A fetched snapshot whose date parses is returned and stored in place of any old entry. A fetched snapshot whose date does not parse is fatal and stores nothing. A failed fetch is passed on. Only snapshots with parseable dates are returned. No other key changes. |
| VendorCache.GetAsWritten | src/kiosk/kiosk.go:145-156 | The source's ordering: a fresh entry is a hit, and a fetch happens iff the entry is stale. A fetched snapshot is stored whether or not its date parses. It is returned when the date parses, and the call is fatal when it does not. A failed fetch is passed on. |
| VendorCache.ExpiredEntryRefreshed | src/kiosk/kiosk.go:141-156 | An expired entry is refetched. A good upstream snapshot is returned and replaces the old entry, and the next `get` serves it without fetching while it is fresh. |
| VendorCache.ExpiryMonotone | src/kiosk/kiosk.go:165-171 | An entry that has expired stays expired as the clock advances. |
| VendorCache.NotExpiredAtRefreshDate | src/kiosk/kiosk.go:170 | At exactly the refresh date an entry is not yet expired. |
| VendorCache.GetKeepsWellFormed | src/kiosk/kiosk.go:149-156 | The corrected `get` stores only snapshots whose refresh date parses. |
| VendorCache.FetchedEntryServesNextGet | src/kiosk/kiosk.go:139-141 | A snapshot just fetched is served by every later `get` of that vendor, without a new fetch, until its refresh date. |
| VendorCache.GetStable | src/kiosk/kiosk.go:138-163 | Within one request, a `get` of any vendor never changes what a later `get` of any vendor returns. |
| VendorCache.FailedGetRecovers | src/kiosk/kiosk.go:152-156 | After the corrected `get` fails on an absent entry, a later request whose fetch brings a good snapshot gets that snapshot. |
| VendorCache.PoisonedEntryAsWritten | src/kiosk/kiosk.go:152-156 | In the source's order, a fetched snapshot with an unparseable date is stored, and the `get` fails. Every later `get` of that vendor then fails without fetching, whatever the upstream would now return. |
| VendorCache.PoisonedEntryExample | src/kiosk/kiosk.go:152-156 | With a refresh date of `""`, a second request with a good upstream answer still fails in the source's order, and succeeds in the corrected order. |
| Availability.UnionOfSales | src/kiosk/kiosk.go:103-117 | A pass over the vendors never drops a cache entry. Only the listed vendors' entries can be added or replaced, and every other entry keeps its snapshot. |
| Availability.UnionOfSalesSpec | src/kiosk/kiosk.go:102-118 | The union over a vendor list succeeds iff every listed vendor's snapshot can be obtained. An item is then in the union iff some listed vendor's snapshot sells it in some sale category. |
| Availability.UnionStable | src/kiosk/kiosk.go:111 | The cache after the union gives the same answer to every `get` as the cache before it. |
| Availability.VendorOrderIrrelevant | src/kiosk/kiosk.go:102-118 | Two vendor lists with the same members give the same outcome and the same item set. |
| ItemStatus.FailureLines | src/kiosk/kiosk.go:125-128 | The lookup succeeds iff every failure index is within the failure strings. The i-th line is then the failure string at the i-th index. |
| ItemStatus.ItemDescription | src/kiosk/kiosk.go:121-130 | The description is fatal iff some index is out of range. With no indexes it is the item name. Otherwise it begins with the item name followed by a blank line. |
| ItemStatus.DescriptionLines | src/kiosk/kiosk.go:121-130 | Split on line breaks, the description is the name alone when there are no indexes. Otherwise it is the name, one empty line, and then the indexed failure strings in order. |
| ItemStatus.MissingFrom | src/kiosk/kiosk.go:85-87 | Folding the unlock statuses gives "missing" iff some status is unset. |
| ItemStatus.MissingIgnoresFailureIndexes | src/kiosk/kiosk.go:85-87 | "Missing" means some unlock status is unset, and it does not depend on the failure indexes. |
| Kiosk.IncludedHashes | src/kiosk/kiosk.go:103-110 | A vendor hash is consulted iff some summary entry with that hash is enabled and its identifier is not blacklisted. |
| Kiosk.ItemsForSale | src/kiosk/kiosk.go:99-119 | `getItemsForSale` succeeds iff every enabled, non-blacklisted vendor's snapshot can be obtained. The cache entry of any vendor it does not consult is left as it was. |
| Kiosk.ItemsForSaleSpec | src/kiosk/kiosk.go:99-119 | The for-sale set exists iff every enabled, non-blacklisted vendor's snapshot can be obtained. An item is then in it iff such a vendor's snapshot sells it. |
| Kiosk.ExcludedVendorChangesNothing | src/kiosk/kiosk.go:104-110 | Inserting a disabled or blacklisted vendor anywhere in the summary leaves the for-sale set and the cache unchanged. |
| Kiosk.SummaryOrderIrrelevant | src/kiosk/kiosk.go:102-118 | Any two summaries with the same entries give the same for-sale outcome. |
| Kiosk.AssembleItem | src/kiosk/kiosk.go:80-91 | An item assembles iff its failure indexes are in range. Its icon is the origin-prefixed manifest icon, and its description is the name annotated with its failure strings. It is missing iff some unlock status is unset, and for sale iff it is missing and in the for-sale set. |
| Kiosk.AssembleItems | src/kiosk/kiosk.go:79-93 | A category's items assemble iff each does. There is one item per sale item, in order. |
| Kiosk.AssembleCategories | src/kiosk/kiosk.go:77-95 | The page assembles iff every category does. There is one category per upstream category, in order, with the upstream title and that category's items. |
| Kiosk.FetchKioskStatus | src/kiosk/kiosk.go:65-97 | A page is produced iff the target fetch, the vendor summary, the for-sale set and the category assembly all succeed. On success: the vendor's name as title, the user's display name, one category per category of the target snapshot, and every item assembled against the for-sale set of the vendor summary. The cache afterwards is the one the for-sale pass left. The target vendor is fetched directly, so a failure to fetch it, or a failed summary, leaves the cache unchanged. Once the summary is in hand, the cache afterwards is the for-sale pass's, whether or not the page is produced. |
| Kiosk.CategoryMissingAndForSale | src/kiosk/kiosk.go:56-63 | A category has something to buy iff one of its items is both missing and for sale. |
| Kiosk.MissingAndForSale | src/kiosk/kiosk.go:47-54 | The page has something to buy iff some item in some category is both missing and for sale. |
| Kiosk.KioskMissingAndForSale | src/kiosk/kiosk.go:47-118 | The roll-up is true iff some sale item of the target vendor has an unset unlock status and is sold by some enabled, non-blacklisted vendor. |
| Kiosk.MissingItemScenario | src/kiosk/kiosk.go:80-91 | An item with one failure index and an unset status is missing. Its description is the name, a blank line and the failure string. It is for sale exactly when the for-sale set holds it. |
| VendorHandler.IsForSale | handler/vendor.go:198-209 | The check succeeds iff every one of the seventeen selling vendors' snapshots can be obtained. It answers true iff one of them sells the item. The source hash plays no part, and the cache keeps its answers. |
| VendorHandler.BountyTrackerSells | handler/vendor.go:127-145 | The bounty tracker is among the selling vendors, so an item it sells is for sale. |
| VendorHandler.ForSaleOverSources | handler/vendor.go:93-97 | The loop over the item's source hashes answers true iff the running flag was already set, or there is at least one source hash and some selling vendor sells the item. Once the flag is set, no further vendor is consulted. |
| VendorHandler.AssembleItem | handler/vendor.go:84-98 | The description is fatal iff an index is out of range. Missing iff some unlock status is unset. For sale only when missing, with at least one source hash, and sold by a selling vendor. |
| VendorHandler.NoSourcesNeverForSale | handler/vendor.go:93-97 | An item whose manifest row lists no source hashes is never for sale, and the cache is not consulted for it. |
| VendorHandler.AssembleItems | handler/vendor.go:83-99 | A category's items assemble iff each item assembles against the cache as it stood before the category. There is one item per sale item, each equal to that item assembled alone. |
| VendorHandler.AssembleCategories | handler/vendor.go:82-101 | Assembling the categories, with every for-sale check it makes, leaves a cache that gives the same answer to every vendor `get` as the cache before it. |
| VendorHandler.AssembleCategoriesSpec | handler/vendor.go:82-101 | The page assembles iff every category does against the initial cache. There is one category per upstream category, with the upstream title and that category's items. |
| VendorHandler.CharacterList | handler/vendor.go:74-81 | One entry per stored character, in order, with its id and class. An entry is current iff its id equals the requested character. |
| VendorHandler.OneCurrentCharacter | handler/vendor.go:74-81 | With distinct ids, at most one character is current, and exactly one when the requested id is among them. |
| VendorHandler.SelectCharacter | handler/vendor.go:29-33 | A requested character is shown. An empty request redirects to the first stored character, and is fatal when there is none. |
| VendorHandler.ServeVendor | handler/vendor.go:23-101 | An empty request only redirects and leaves the cache alone. A requested character gets a rendered page iff the vendor fetch and the category assembly succeed, and a failed vendor fetch leaves the cache alone. A rendered page has the vendor name, the user, the character list, and the assembled categories of the fetched snapshot. |
| LegacyKiosk.ItemRow | kiosk.go:189-190 | An item's definition row is the one shipped with the response; an item without one reads as Go's zero value, with an empty name and icon. |
| LegacyKiosk.FailureStrings | kiosk.go:151 | The failure strings are those of the requested vendor's details; a vendor without details has none. |
| LegacyKiosk.AssembleItem | kiosk.go:188-205 | An item assembles iff it has no failure indexes or its first index is in range. It is owned iff it has no failure indexes. An owned item's description is its name. An unowned item's description is its name, a blank line and the failure string of its first index. Its icon is the origin-prefixed definition icon. |
| LegacyKiosk.DescriptionLines | kiosk.go:198-202 | Split on line breaks, an unowned item's description is the name, an empty line, and the failure string of its first index. |
| LegacyKiosk.AgreesWithLaterVariant | kiosk.go:195-204 | The oldest description is a prefix of the canonical one, and equal to it when the item has exactly one failure index. |
| LegacyKiosk.AssembleItems | kiosk.go:187-206 | A category's items assemble iff each does, one per sale item, in order. |
| LegacyKiosk.AssembleCategories | kiosk.go:186-208 | The page assembles iff every category does. There is one category per upstream category, with its title and items. |
| LegacyKiosk.Characters | kiosk.go:177-185 | Every listed character is current iff its id equals the requested one. |
| LegacyKiosk.CharactersAppend | kiosk.go:177-185 | The flattened list of two account lists is the concatenation of their flattened lists. |
| LegacyKiosk.CharactersOfOneAccount | kiosk.go:177-185 | One account contributes its characters, in order, with their ids and classes. |
| LegacyKiosk.SelectCharacter | kiosk.go:135-143 | A requested character is shown. An empty request redirects to the first character of the first account, and is fatal when either is absent. |
| LegacyKiosk.ServeKiosk | kiosk.go:133-208 | An empty request only redirects. A requested character gets a rendered page iff the vendor response arrived and every category assembles. A rendered page has the vendor name, the user, the flattened characters, and the assembled categories of the vendor response. |
| Text.SplitJoin | src/kiosk/kiosk.go:129 | Joining separator-free pieces with a line break and splitting the result on line breaks gives the pieces back. |

## Left out

- Concurrency: the reader/writer lock and the double-checked lookup collapse into one sequential lookup. The read lock that stays held when `isExpired` panics on the read path is not modelled.
- Time: the timestamp layout `2006-01-02T15:04:05Z` and the wall clock are the `parse` and `now` parameters.
- Clock: `Env.now` is read once per request, while the source reads `time.Now()` in every `isExpired` call (src/kiosk/kiosk.go:170, handler/vendor.go:186). With a moving clock an entry can expire mid-request and be fetched again with different contents. VendorCache.GetStable, Availability.UnionStable, Availability.UnionOfSalesSpec, Kiosk.ItemsForSaleSpec, VendorHandler.AssembleItems and VendorHandler.AssembleCategoriesSpec hold only for the single reading.
- Availability.UnionOfSales: the composed passes use the corrected `VendorCache.Get`. So after a fetched snapshot with an unparseable date, the request fails as in the source, but the cache handed to the next request does not keep the poisoned entry the source would keep. That entry is modelled only by `VendorCache.GetAsWritten`.
- Request construction: the panics of `http.NewRequest` and of the JSON encoding of a POST body (api/api.go:51-53, 61-67) are not modelled.
- Backoff: the exponential backoff intervals and the elapsed-time limit become a number of allowed retries.
- Header names: Go's canonicalisation of header names and the URL building of each request type are not modelled.
- HTTP: the response body reuse across retry attempts is not modelled, nor is the JSON encoding and decoding beyond "decoded or not".
- Vendor definition hash: the canonical variant keys the cache and fetches by the manifest row's own `Hash` field (src/kiosk/kiosk.go:111, 140, 145, 148, 152). The model takes that field to equal the hash the row was looked up by, the summary entry's hash, and uses the summary hash for both.
- Manifest: lookups are total functions. The panic on a missing manifest row (the failed database scan) is not modelled.
- Characters: `characterURL`, query encoding, template rendering and the HTTP redirect are not modelled; a redirect is a value naming the character.
- `DestinyUsers[0]`: the first destiny user of the account is taken as given, and its absence is not modelled.
- Upstream fetches: the vendor summary, the account and the legacy vendor response are inputs to the model rather than calls.
- LegacyKiosk: the definition maps are keyed by item hash rather than by the hash's decimal text.
- Logging is not modelled.
- ItemStatus.ItemDescription: the exact text of a description is stated through `DescriptionLines` only when neither the name nor the failure strings contain a line break.
- VendorHandler.IsForSale: modelled for a request whose upstream fetch is fixed. A fetch that changes between two checks of the same request is not modelled.

## Findings

| source | as written | input that shows it | evidently intended | confidence | as-written member | corrected member |
|---|---|---|---|---|---|---|
| src/kiosk/kiosk.go:152-156 | The fetched snapshot is stored in the cache before its refresh date is parsed; when the parse fails the request panics and the bad snapshot stays cached, so every later `get` of that vendor panics in `isExpired` without fetching again (same code at handler/vendor.go:168-172) | a vendor response whose `NextRefreshDate` is `""` | store a snapshot only after its refresh date parses, so a later request fetches again | medium, not executed | VendorCache.GetAsWritten (shown by VendorCache.PoisonedEntryAsWritten, VendorCache.PoisonedEntryExample) | VendorCache.Get (proved by VendorCache.GetKeepsWellFormed, VendorCache.FailedGetRecovers) |

=== FILE: api.dfy ===
/** The upstream API client: header injection on every request, the
    classification of one HTTP attempt, and the retry loop that repeats a
    failed attempt until it succeeds or the retry policy gives up. */
module Api {
  import opened Outcomes
  import opened Destiny

  /** The common header of every API response. */
  datatype Envelope = Envelope(
    errorCode: int,
    errorStatus: string,
    message: string,
    throttleSeconds: int)

  /** What one attempt observed: whether the transport failed, the HTTP
      status, and the decoded body (`None` when decoding failed). */
  datatype Attempt = Attempt(
    transportError: bool,
    statusCode: int,
    decoded: Option<Envelope>)

  /** The reason an attempt is retried. */
  datatype AttemptError =
    | TransportError
    | BadResponse(statusCode: int)
    | DecodeError
    | BadMessage(errorCode: int)

  const StatusOK: int := 200

  /** The application-level success sentinel of the response envelope. */
  const SuccessErrorCode: int := 1

  /** Checks one attempt in the order the client does: transport, status,
      decoding, then the envelope's error code. `None` means success. */
  function Classify(a: Attempt): (r: Option<AttemptError>)
    ensures r.None? <==>
      !a.transportError && a.statusCode == StatusOK &&
      a.decoded.Some? && a.decoded.value.errorCode == SuccessErrorCode
    ensures r == Some(TransportError) <==> a.transportError
    ensures (exists c :: r == Some(BadMessage(c))) <==>
      !a.transportError && a.statusCode == StatusOK &&
      a.decoded.Some? && a.decoded.value.errorCode != SuccessErrorCode
  {
    if a.transportError then Some(TransportError)
    else if a.statusCode != StatusOK then Some(BadResponse(a.statusCode))
    else if a.decoded.None? then Some(DecodeError)
    else if a.decoded.value.errorCode != SuccessErrorCode then Some(BadMessage(a.decoded.value.errorCode))
    else None
  }

  predicate Succeeds(a: Attempt)
  {
    Classify(a).None?
  }

  /** Runs attempts `attempt(0)`, `attempt(1)`, ... until one succeeds. The
      first attempt is always made; the retry policy allows `retries` more.
      Returns the decoded envelope of the successful attempt and how many
      attempts were made; when every allowed attempt fails the call is fatal. */
  method Retry(attempt: nat -> Attempt, retries: nat) returns (r: Result<Envelope, Fatal>, made: nat)
    ensures 1 <= made <= retries + 1
    ensures forall k :: 0 <= k < made - 1 ==> !Succeeds(attempt(k))
    ensures r.Success? <==> Succeeds(attempt(made - 1))
    ensures r.Success? ==> r.value == attempt(made - 1).decoded.value
    ensures r.Failure? ==> made == retries + 1 && r.error == ApiGaveUp
  {
    var k: nat := 0;
    while k <= retries
      invariant k <= retries + 1
      invariant forall j :: 0 <= j < k ==> !Succeeds(attempt(j))
    {
      if Succeeds(attempt(k)) {
        return Success(attempt(k).decoded.value), k + 1;
      }
      k := k + 1;
    }
    return Failure(ApiGaveUp), retries + 1;
  }

  datatype Header = Header(name: string, value: string)

  datatype Request = Request(
    verb: string,
    url: string,
    headers: seq<Header>,
    body: Option<string>)

  const AuthorizationHeader: string := "Authorization"
  const ContentTypeHeader: string := "Content-Type"
  const ApiKeyHeader: string := "X-API-Key"

  /** Every value carried under header `name`, in the order added. */
  function HeaderValues(headers: seq<Header>, name: string): (r: seq<string>)
  {
    if |headers| == 0 then []
    else (if headers[0].name == name then [headers[0].value] else []) + HeaderValues(headers[1..], name)
  }

  lemma {:induction false} HeaderValuesAppend(a: seq<Header>, b: seq<Header>, name: string)
    ensures HeaderValues(a + b, name) == HeaderValues(a, name) + HeaderValues(b, name)
  {
    if |a| > 0 {
      assert (a + b)[1..] == a[1..] + b;
      HeaderValuesAppend(a[1..], b, name);
    } else {
      assert a + b == b;
    }
  }

  /** A GET request carries the caller's bearer token and no body. */
  function NewGet(url: string, auth: string): (r: Request)
    ensures r.verb == "GET" && r.url == url && r.body.None?
    ensures HeaderValues(r.headers, AuthorizationHeader) == ["Bearer " + auth]
    ensures HeaderValues(r.headers, ContentTypeHeader) == []
    ensures HeaderValues(r.headers, ApiKeyHeader) == []
  {
    Request("GET", url, [Header(AuthorizationHeader, "Bearer " + auth)], None)
  }

  /** A POST request carries a JSON body and no bearer token. */
  function NewPost(url: string, body: string): (r: Request)
    ensures r.verb == "POST" && r.url == url && r.body == Some(body)
    ensures HeaderValues(r.headers, ContentTypeHeader) == ["application/json"]
    ensures HeaderValues(r.headers, AuthorizationHeader) == []
    ensures HeaderValues(r.headers, ApiKeyHeader) == []
  {
    Request("POST", url, [Header(ContentTypeHeader, "application/json")], Some(body))
  }

  /** The client adds its API key to every request it sends; nothing else
      about the request changes. */
  function WithApiKey(req: Request, apiKey: string): (r: Request)
    ensures r.verb == req.verb && r.url == req.url && r.body == req.body
    ensures HeaderValues(r.headers, ApiKeyHeader) == HeaderValues(req.headers, ApiKeyHeader) + [apiKey]
    ensures forall name :: name != ApiKeyHeader ==>
      HeaderValues(r.headers, name) == HeaderValues(req.headers, name)
  {
    var r := req.(headers := req.headers + [Header(ApiKeyHeader, apiKey)]);
    forall name ensures HeaderValues(r.headers, name) ==
      HeaderValues(req.headers, name) + (if name == ApiKeyHeader then [apiKey] else [])
    {
      HeaderValuesAppend(req.headers, [Header(ApiKeyHeader, apiKey)], name);
    }
    r
  }

  /** `Client.do`: the API key is added once, then the attempts are
      retried. Returns the request as sent with the retry outcome. */
  method Do(req: Request, apiKey: string, attempt: nat -> Attempt, retries: nat)
    returns (sent: Request, r: Result<Envelope, Fatal>, made: nat)
    ensures sent.verb == req.verb && sent.url == req.url && sent.body == req.body
    ensures HeaderValues(sent.headers, ApiKeyHeader) == HeaderValues(req.headers, ApiKeyHeader) + [apiKey]
    ensures forall name :: name != ApiKeyHeader ==>
      HeaderValues(sent.headers, name) == HeaderValues(req.headers, name)
    ensures 1 <= made <= retries + 1
    ensures r.Success? <==> Succeeds(attempt(made - 1))
    ensures r.Success? ==> r.value == attempt(made - 1).decoded.value
    ensures forall k :: 0 <= k < made - 1 ==> !Succeeds(attempt(k))
    ensures r.Failure? ==> made == retries + 1 && r.error == ApiGaveUp
  {
    sent := WithApiKey(req, apiKey);
    r, made := Retry(attempt, retries);
  }

  /** `Client.get`: a GET that leaves the client carries exactly the API key
      and the caller's bearer token, and no content type. */
  method SendGet(url: string, auth: string, apiKey: string, attempt: nat -> Attempt, retries: nat)
    returns (sent: Request, r: Result<Envelope, Fatal>, made: nat)
    ensures sent.verb == "GET" && sent.url == url && sent.body.None?
    ensures HeaderValues(sent.headers, ApiKeyHeader) == [apiKey]
    ensures HeaderValues(sent.headers, AuthorizationHeader) == ["Bearer " + auth]
    ensures HeaderValues(sent.headers, ContentTypeHeader) == []
    ensures 1 <= made <= retries + 1
    ensures r.Success? <==> Succeeds(attempt(made - 1))
    ensures r.Success? ==> r.value == attempt(made - 1).decoded.value
    ensures forall k :: 0 <= k < made - 1 ==> !Succeeds(attempt(k))
    ensures r.Failure? ==> made == retries + 1 && r.error == ApiGaveUp
  {
    sent, r, made := Do(NewGet(url, auth), apiKey, attempt, retries);
  }

  /** `Client.post`: a POST that leaves the client carries exactly the API
      key and the JSON content type, and no bearer token. */
  method SendPost(url: string, body: string, apiKey: string, attempt: nat -> Attempt, retries: nat)
    returns (sent: Request, r: Result<Envelope, Fatal>, made: nat)
    ensures sent.verb == "POST" && sent.url == url && sent.body == Some(body)
    ensures HeaderValues(sent.headers, ApiKeyHeader) == [apiKey]
    ensures HeaderValues(sent.headers, ContentTypeHeader) == ["application/json"]
    ensures HeaderValues(sent.headers, AuthorizationHeader) == []
    ensures 1 <= made <= retries + 1
    ensures r.Success? <==> Succeeds(attempt(made - 1))
    ensures r.Success? ==> r.value == attempt(made - 1).decoded.value
    ensures forall k :: 0 <= k < made - 1 ==> !Succeeds(attempt(k))
    ensures r.Failure? ==> made == retries + 1 && r.error == ApiGaveUp
  {
    sent, r, made := Do(NewPost(url, body), apiKey, attempt, retries);
  }
}

=== FILE: availability.dfy ===
/** The union of the items for sale across a list of vendors, each vendor's
    snapshot obtained through the vendor cache, the cache threaded from one
    vendor to the next. */
module Availability {
  import opened Outcomes
  import opened Destiny
  import opened VendorCache

  /** The outcome of a pass over the vendors: the union (or the first fatal
      condition) and the cache afterwards. */
  datatype Pass = Pass(items: Result<set<ItemHash>, Fatal>, cache: Cache)

  /** The vendors are visited in list order; the first fatal condition
      stops the pass. Only the listed vendors' entries can change, and no
      entry is ever dropped. */
  function UnionOfSales(hashes: seq<VendorHash>, cache: Cache, env: Env): (p: Pass)
    ensures forall k :: k in cache ==> k in p.cache
    ensures forall k :: k in p.cache ==> k in cache || k in hashes
    ensures forall k :: k in cache && k !in hashes ==> p.cache[k] == cache[k]
    decreases |hashes|
  {
    if |hashes| == 0 then Pass(Success({}), cache)
    else
      var o := Get(cache, env, hashes[0]);
      if o.result.Failure? then Pass(Failure(o.result.error), o.cache)
      else
        var rest := UnionOfSales(hashes[1..], o.cache, env);
        if rest.items.Failure? then rest
        else Pass(Success(SnapshotItems(o.result.value) + rest.items.value), rest.cache)
  }

  /** Every listed vendor's snapshot can be obtained from `cache`. */
  ghost predicate AllResolve(hashes: seq<VendorHash>, cache: Cache, env: Env)
  {
    forall v :: v in hashes ==> Get(cache, env, v).result.Success?
  }

  /** Vendor `v`'s snapshot, as obtained from `cache`, sells `h`. */
  ghost predicate Sells(cache: Cache, env: Env, v: VendorHash, h: ItemHash)
  {
    Get(cache, env, v).result.Success? && h in SnapshotItems(Get(cache, env, v).result.value)
  }

  /** Some listed vendor's snapshot, as obtained from `cache`, sells `h`. */
  ghost predicate SoldBy(hashes: seq<VendorHash>, cache: Cache, env: Env, h: ItemHash)
  {
    exists v :: v in hashes && Sells(cache, env, v, h)
  }

  /** Two caches that answer every `get` alike. */
  ghost predicate SameAnswers(c1: Cache, c2: Cache, env: Env)
  {
    forall w :: Get(c1, env, w).result == Get(c2, env, w).result
  }

  lemma GetStableAll(cache: Cache, env: Env, v: VendorHash)
    ensures SameAnswers(Get(cache, env, v).cache, cache, env)
  {
    forall w ensures Get(Get(cache, env, v).cache, env, w).result == Get(cache, env, w).result {
      GetStable(cache, env, v, w);
    }
  }

  /** A pass changes no vendor's answer for the rest of the request. */
  lemma {:induction false} UnionStable(hashes: seq<VendorHash>, cache: Cache, env: Env)
    ensures SameAnswers(UnionOfSales(hashes, cache, env).cache, cache, env)
    decreases |hashes|
  {
    if |hashes| > 0 {
      var o := Get(cache, env, hashes[0]);
      GetStableAll(cache, env, hashes[0]);
      if o.result.Success? {
        UnionStable(hashes[1..], o.cache, env);
      }
    }
  }

  /** Each cache that answers alike yields the same `AllResolve` and `SoldBy`. */
  lemma SameAnswersTransfer(hashes: seq<VendorHash>, c1: Cache, c2: Cache, env: Env)
    requires SameAnswers(c1, c2, env)
    ensures AllResolve(hashes, c1, env) <==> AllResolve(hashes, c2, env)
    ensures forall h :: SoldBy(hashes, c1, env, h) <==> SoldBy(hashes, c2, env, h)
  {
  }

  lemma AllResolveCons(hashes: seq<VendorHash>, cache: Cache, env: Env)
    requires |hashes| > 0
    ensures AllResolve(hashes, cache, env) <==>
      Get(cache, env, hashes[0]).result.Success? && AllResolve(hashes[1..], cache, env)
  {
    assert forall v :: v in hashes <==> v == hashes[0] || v in hashes[1..] by {
      assert hashes == [hashes[0]] + hashes[1..];
    }
  }

  lemma SoldByCons(hashes: seq<VendorHash>, cache: Cache, env: Env, h: ItemHash)
    requires |hashes| > 0
    ensures SoldBy(hashes, cache, env, h) <==> Sells(cache, env, hashes[0], h) || SoldBy(hashes[1..], cache, env, h)
  {
    assert forall v :: v in hashes <==> v == hashes[0] || v in hashes[1..] by {
      assert hashes == [hashes[0]] + hashes[1..];
    }
  }

  /** The pass succeeds iff every listed vendor resolves, and then an item
      is in the union iff some listed vendor sells it. */
  lemma {:induction false} UnionOfSalesSpec(hashes: seq<VendorHash>, cache: Cache, env: Env)
    ensures UnionOfSales(hashes, cache, env).items.Success? <==> AllResolve(hashes, cache, env)
    ensures UnionOfSales(hashes, cache, env).items.Success? ==>
      forall h :: h in UnionOfSales(hashes, cache, env).items.value <==> SoldBy(hashes, cache, env, h)
    decreases |hashes|
  {
    if |hashes| > 0 {
      var o := Get(cache, env, hashes[0]);
      var tail := hashes[1..];
      AllResolveCons(hashes, cache, env);
      if o.result.Success? {
        var rest := UnionOfSales(tail, o.cache, env);
        UnionOfSalesSpec(tail, o.cache, env);
        GetStableAll(cache, env, hashes[0]);
        SameAnswersTransfer(tail, o.cache, cache, env);
        if rest.items.Success? {
          forall h ensures h in UnionOfSales(hashes, cache, env).items.value <==> SoldBy(hashes, cache, env, h) {
            SoldByCons(hashes, cache, env, h);
          }
        }
      }
    }
  }

  /** Listing the same vendors in another order, or repeating one, gives
      the same verdict and the same union. */
  lemma VendorOrderIrrelevant(a: seq<VendorHash>, b: seq<VendorHash>, cache: Cache, env: Env)
    requires forall v :: v in a <==> v in b
    ensures UnionOfSales(a, cache, env).items.Success? <==> UnionOfSales(b, cache, env).items.Success?
    ensures UnionOfSales(a, cache, env).items.Success? ==>
      UnionOfSales(a, cache, env).items.value == UnionOfSales(b, cache, env).items.value
  {
    UnionOfSalesSpec(a, cache, env);
    UnionOfSalesSpec(b, cache, env);
  }
}

=== FILE: cache.dfy ===
/** The per-vendor-hash memo of vendor snapshots. An entry is served until
    the clock is strictly after the entry's own server-declared refresh date;
    a missing or expired entry is fetched once and stored under its hash.

    The reader/writer locking of the source collapses to one sequential step
    here: the re-check under the write lock sees what the first look-up saw. */
module VendorCache {
  import opened Outcomes
  import opened Destiny

  /** The cache is keyed by vendor hash only: vendors are assumed to sell
      the same items to every user. */
  type Cache = map<VendorHash, VendorSnapshot>

  /** What one request sees of the outside world: the clock, the timestamp
      parser, and the upstream fetch of a vendor (which fails when the
      client's retry policy gives up). */
  datatype Env = Env(
    now: int,
    parse: string -> Option<int>,
    fetch: VendorHash -> Result<VendorSnapshot, Fatal>)

  /** Whether the snapshot's refresh date lies strictly before `now`; an
      unparseable date is fatal. */
  function IsExpired(s: VendorSnapshot, env: Env): (r: Result<bool, Fatal>)
    ensures r.Failure? <==> env.parse(s.nextRefreshDate).None?
    ensures r.Failure? ==> r.error == BadRefreshDate
    ensures r == Success(true) <==>
      (env.parse(s.nextRefreshDate).Some? && env.parse(s.nextRefreshDate).value < env.now)
  {
    match env.parse(s.nextRefreshDate)
    case None => Failure(BadRefreshDate)
    case Some(t) => Success(env.now > t)
  }

  /** An entry is served without fetching. */
  predicate Fresh(cache: Cache, env: Env, hash: VendorHash)
  {
    hash in cache && IsExpired(cache[hash], env) == Success(false)
  }

  /** An entry must be (re)fetched: absent, or present and expired. */
  predicate Stale(cache: Cache, env: Env, hash: VendorHash)
  {
    hash !in cache || IsExpired(cache[hash], env) == Success(true)
  }

  /** Every cached snapshot carries a parseable refresh date. */
  predicate WellFormed(cache: Cache, env: Env)
  {
    forall k :: k in cache ==> env.parse(cache[k].nextRefreshDate).Some?
  }

  /** The outcome of one `get`: the snapshot (or the fatal condition), the
      cache afterwards, and whether the upstream fetch was invoked. */
  datatype Lookup = Lookup(result: Result<VendorSnapshot, Fatal>, cache: Cache, fetched: bool)

  /** `cache.get`, with the refresh date validated before the fetched
      snapshot is stored (see `GetAsWritten` for the source's order). The
      full contract is `GetContract`. */
  function Get(cache: Cache, env: Env, hash: VendorHash): (o: Lookup)
    ensures o.result.Failure? ==> o.cache == cache
    ensures o.result.Success? ==> o.cache == cache[hash := o.result.value]
  {
    if hash in cache && IsExpired(cache[hash], env).Failure? then
      Lookup(Failure(BadRefreshDate), cache, false)
    else if Fresh(cache, env, hash) then
      Lookup(Success(cache[hash]), cache, false)
    else
      match env.fetch(hash)
      case Failure(e) => Lookup(Failure(e), cache, true)
      case Success(s) =>
        if env.parse(s.nextRefreshDate).None? then Lookup(Failure(BadRefreshDate), cache, true)
        else Lookup(Success(s), cache[hash := s], true)
  }

  /** The hit/miss behaviour of `Get`. */
  lemma GetContract(cache: Cache, env: Env, hash: VendorHash)
    ensures var o := Get(cache, env, hash);
      // hit: the stored snapshot, no fetch, cache unchanged
      && (Fresh(cache, env, hash) ==> o == Lookup(Success(cache[hash]), cache, false))
      // a stored entry whose date does not parse is fatal before any fetch
      && (hash in cache && IsExpired(cache[hash], env).Failure? ==>
            o == Lookup(Failure(BadRefreshDate), cache, false))
      // miss or expired: exactly one fetch, whose snapshot is returned and stored
      && (o.fetched <==> Stale(cache, env, hash))
      && (o.fetched && o.result.Success? ==>
            env.fetch(hash) == Success(o.result.value) && o.cache == cache[hash := o.result.value])
      && (o.fetched && env.fetch(hash).Failure? ==> o == Lookup(env.fetch(hash), cache, true))
      // a good upstream answer is returned and installed; a bad date is fatal and installs nothing
      && (o.fetched && env.fetch(hash).Success? && env.parse(env.fetch(hash).value.nextRefreshDate).Some? ==>
            o == Lookup(env.fetch(hash), cache[hash := env.fetch(hash).value], true))
      && (o.fetched && env.fetch(hash).Success? && env.parse(env.fetch(hash).value.nextRefreshDate).None? ==>
            o == Lookup(Failure(BadRefreshDate), cache, true))
      // only snapshots with a parseable refresh date are returned
      && (o.result.Success? ==> env.parse(o.result.value.nextRefreshDate).Some?)
      // no other key changes
      && (forall k :: k != hash ==> (k in o.cache <==> k in cache))
      && (forall k :: k != hash && k in cache ==> o.cache[k] == cache[k])
  {
  }

  /** `cache.get` as the source orders it: the fetched snapshot is stored
      before its refresh date is parsed, so a bad date is stored too. */
  function GetAsWritten(cache: Cache, env: Env, hash: VendorHash): (o: Lookup)
    ensures Fresh(cache, env, hash) ==> o == Lookup(Success(cache[hash]), cache, false)
    ensures o.fetched <==> Stale(cache, env, hash)
    ensures o.fetched && env.fetch(hash).Success? ==> o.cache == cache[hash := env.fetch(hash).value]
    ensures o.fetched && env.fetch(hash).Success? ==>
      o.result == (if env.parse(env.fetch(hash).value.nextRefreshDate).Some? then env.fetch(hash)
                   else Failure(BadRefreshDate))
    ensures o.fetched && env.fetch(hash).Failure? ==> o == Lookup(env.fetch(hash), cache, true)
  {
    if hash in cache && IsExpired(cache[hash], env).Failure? then
      Lookup(Failure(BadRefreshDate), cache, false)
    else if Fresh(cache, env, hash) then
      Lookup(Success(cache[hash]), cache, false)
    else
      match env.fetch(hash)
      case Failure(e) => Lookup(Failure(e), cache, true)
      case Success(s) =>
        var stored := cache[hash := s];
        if env.parse(s.nextRefreshDate).None? then Lookup(Failure(BadRefreshDate), stored, true)
        else Lookup(Success(s), stored, true)
  }

  /** An expired entry is replaced: when the upstream answers with a
      snapshot whose date parses, that snapshot is returned and installed
      in place of the old one, and the next `get` serves it while fresh. */
  lemma ExpiredEntryRefreshed(cache: Cache, env: Env, hash: VendorHash, s: VendorSnapshot)
    requires hash in cache && IsExpired(cache[hash], env) == Success(true)
    requires env.fetch(hash) == Success(s) && env.parse(s.nextRefreshDate).Some?
    ensures Get(cache, env, hash) == Lookup(Success(s), cache[hash := s], true)
    ensures env.parse(s.nextRefreshDate).value >= env.now ==>
      Get(cache[hash := s], env, hash) == Lookup(Success(s), cache[hash := s], false)
  {
    assert Stale(cache, env, hash);
  }

  /** Expiry is monotone in the clock: an expired entry stays expired. */
  lemma ExpiryMonotone(s: VendorSnapshot, env: Env, later: int)
    requires env.now <= later
    requires IsExpired(s, env) == Success(true)
    ensures IsExpired(s, env.(now := later)) == Success(true)
  {
  }

  /** Expiry is strict: at exactly the refresh date the entry is still served. */
  lemma NotExpiredAtRefreshDate(s: VendorSnapshot, env: Env)
    requires env.parse(s.nextRefreshDate) == Some(env.now)
    ensures IsExpired(s, env) == Success(false)
  {
  }

  /** The corrected `get` keeps every cached date parseable. */
  lemma GetKeepsWellFormed(cache: Cache, env: Env, hash: VendorHash)
    requires WellFormed(cache, env)
    ensures WellFormed(Get(cache, env, hash).cache, env)
  {
  }

  /** A snapshot just fetched, while still fresh, is served by the next
      `get` without fetching again; later clocks up to its refresh date
      see the same snapshot. */
  lemma FetchedEntryServesNextGet(cache: Cache, env: Env, hash: VendorHash, later: int)
    requires Get(cache, env, hash).fetched && Get(cache, env, hash).result.Success?
    requires env.parse(Get(cache, env, hash).result.value.nextRefreshDate).value >= later
    ensures var o := Get(cache, env, hash);
      Get(o.cache, env.(now := later), hash) == Lookup(o.result, o.cache, false)
  {
    var o := Get(cache, env, hash);
    assert Fresh(o.cache, env.(now := later), hash);
  }

  /** Within one request (fixed clock and fetch), a `get` never changes
      what a later `get` of any vendor returns. */
  lemma GetStable(cache: Cache, env: Env, v: VendorHash, w: VendorHash)
    ensures Get(Get(cache, env, v).cache, env, w).result == Get(cache, env, w).result
  {
    var o := Get(cache, env, v);
    if w == v && o.fetched && o.result.Success? {
      assert o.cache[w] == o.result.value;
      assert Stale(cache, env, w);
    }
  }

  /** After the corrected `get` fails on a missing entry, a later request
      whose fetch brings a good snapshot succeeds. */
  lemma FailedGetRecovers(cache: Cache, env: Env, hash: VendorHash, env': Env, s: VendorSnapshot)
    requires hash !in cache
    requires Get(cache, env, hash).result.Failure?
    requires env'.fetch(hash) == Success(s) && env'.parse(s.nextRefreshDate).Some?
    ensures Get(Get(cache, env, hash).cache, env', hash).result == Success(s)
  {
  }

  /** In the source's order, a fetched snapshot with an unparseable refresh
      date is stored, and from then on every `get` of that vendor fails with
      the same parser, whatever later fetches would bring. */
  lemma PoisonedEntryAsWritten(cache: Cache, env: Env, hash: VendorHash, env': Env)
    requires Stale(cache, env, hash)
    requires env.fetch(hash).Success? && env.parse(env.fetch(hash).value.nextRefreshDate).None?
    requires env'.parse == env.parse
    ensures GetAsWritten(cache, env, hash).result == Failure(BadRefreshDate)
    ensures hash in GetAsWritten(cache, env, hash).cache
    ensures GetAsWritten(GetAsWritten(cache, env, hash).cache, env', hash) ==
      Lookup(Failure(BadRefreshDate), GetAsWritten(cache, env, hash).cache, false)
  {
  }

  /** A concrete instance: an empty refresh date that the parser rejects. */
  lemma PoisonedEntryExample()
    ensures var bad := VendorSnapshot("", []);
      var good := VendorSnapshot("2017-01-01T00:00:00Z", []);
      var parse := (d: string) => if d == "" then None else Some(0);
      var first := Env(0, parse, (h: VendorHash) => Success(bad));
      var second := Env(0, parse, (h: VendorHash) => Success(good));
      GetAsWritten(GetAsWritten(map[], first, 7).cache, second, 7).result == Failure(BadRefreshDate) &&
      Get(Get(map[], first, 7).cache, second, 7).result == Success(good)
  {
  }
}

=== FILE: destiny.dfy ===
/** The upstream game-data shapes the vendor-availability engine consumes:
    vendor snapshots (one vendor's current sale listing plus its
    server-declared refresh date), the static vendor and item definitions of
    the manifest, and the fatal conditions that abort a request. */
module Destiny {
  import opened Outcomes

  /** Vendor and item hashes are Go `uint32` values. */
  newtype u32 = x: int | 0 <= x < 0x1_0000_0000

  type VendorHash = u32
  type ItemHash = u32

  /** One unlock-status flag of a sale item: whether a prerequisite of the
      item is satisfied. */
  datatype UnlockStatus = UnlockStatus(isSet: bool)

  /** One line of a vendor's offering. Failure indexes point into the
      vendor definition's failure strings; Go keeps them as plain `int`. */
  datatype SaleItem = SaleItem(
    itemHash: ItemHash,
    failureIndexes: seq<int>,
    unlockStatuses: seq<UnlockStatus>)

  datatype SaleItemCategory = SaleItemCategory(title: string, saleItems: seq<SaleItem>)

  /** The data part of a vendor response. `nextRefreshDate` is the raw
      timestamp text; it is parsed only when the cache needs it. */
  datatype VendorSnapshot = VendorSnapshot(
    nextRefreshDate: string,
    categories: seq<SaleItemCategory>)

  /** Manifest rows (`DestinyVendorDefinition`, `DestinyInventoryItemDefinition`). */
  datatype VendorDefinition = VendorDefinition(
    name: string,
    identifier: string,
    failureStrings: seq<string>)

  datatype ItemDefinition = ItemDefinition(
    name: string,
    icon: string,
    sourceHashes: seq<u32>)

  /** The manifest as two total lookups; a missing row is outside the model. */
  datatype Manifest = Manifest(
    vendor: VendorHash -> VendorDefinition,
    item: ItemHash -> ItemDefinition)

  /** Why a request was aborted (a Go panic in the source). */
  datatype Fatal =
    | ApiGaveUp              // the retry policy exhausted its budget
    | BadRefreshDate         // `NextRefreshDate` did not parse
    | IndexOutOfRange        // a failure index outside the failure strings
    | NoCharacter            // no character to redirect to

  /** Every item hash that appears in some sale category of the snapshot. */
  function SnapshotItems(s: VendorSnapshot): (items: set<ItemHash>)
    ensures forall c, it :: c in s.categories && it in c.saleItems ==> it.itemHash in items
    ensures forall h :: h in items ==>
      exists c, it :: c in s.categories && it in c.saleItems && it.itemHash == h
  {
    set c, it | c in s.categories && it in c.saleItems :: it.itemHash
  }

  /** Go prefixes every manifest icon path with the site origin. */
  const IconOrigin: string := "https://www.bungie.net"

  function IconUrl(path: string): (r: string)
  {
    IconOrigin + path
  }
}

=== FILE: kiosk.dfy ===
/** The canonical kiosk status: one target vendor's sale listing, annotated
    per item with whether the character is missing it and whether any
    enabled, non-blacklisted vendor currently sells it. */
module Kiosk {
  import opened Outcomes
  import opened Destiny
  import opened VendorCache
  import opened Availability
  import opened ItemStatus
  import Text

  /** Identifiers of vendors that are not genuine sale sources: kiosks,
      postmasters and the bounty tracker. Membership is exact string match. */
  const VendorIdentifierBlacklist: set<string> := {
    "VENDOR_BOUNTY_TRACKER",
    "VENDOR_KIOSK_EMBLEMS",
    "VENDOR_KIOSK_EMOTES",
    "VENDOR_KIOSK_EXOTIC_ARMOR",
    "VENDOR_KIOSK_EXOTIC_WEAPON",
    "VENDOR_KIOSK_HOLIDAY",
    "VENDOR_KIOSK_SHADERS",
    "VENDOR_KIOSK_SHIPS",
    "VENDOR_KIOSK_VEHICLES",
    "VENDOR_POSTMASTER",
    "VENDOR_REEF_POSTMASTER"
  }

  /** One entry of the all-vendors summary for the character. */
  datatype VendorSummary = VendorSummary(hash: VendorHash, enabled: bool)

  datatype Data = Data(title: string, user: string, categories: seq<Category>)

  /** A vendor whose inventory counts towards "for sale anywhere". */
  predicate Included(v: VendorSummary, m: Manifest)
  {
    v.enabled && m.vendor(v.hash).identifier !in VendorIdentifierBlacklist
  }

  /** The hashes of the included vendors, in summary order. */
  function IncludedHashes(vendors: seq<VendorSummary>, m: Manifest): (hs: seq<VendorHash>)
    ensures |hs| <= |vendors|
    ensures forall h :: h in hs <==> exists i :: 0 <= i < |vendors| && Included(vendors[i], m) && vendors[i].hash == h
  {
    if |vendors| == 0 then []
    else
      var rest := IncludedHashes(vendors[1..], m);
      assert forall h :: h in rest <==> exists i :: 0 <= i < |vendors| && i > 0 && Included(vendors[i], m) && vendors[i].hash == h by {
        forall h ensures h in rest <==> exists i :: 0 <= i < |vendors| && i > 0 && Included(vendors[i], m) && vendors[i].hash == h {
          if h in rest {
            var j :| 0 <= j < |vendors[1..]| && Included(vendors[1..][j], m) && vendors[1..][j].hash == h;
            assert vendors[j + 1] == vendors[1..][j];
          }
          if exists i :: 0 <= i < |vendors| && i > 0 && Included(vendors[i], m) && vendors[i].hash == h {
            var i :| 0 <= i < |vendors| && i > 0 && Included(vendors[i], m) && vendors[i].hash == h;
            assert vendors[1..][i - 1] == vendors[i];
          }
        }
      }
      if Included(vendors[0], m) then [vendors[0].hash] + rest else rest
  }

  lemma {:induction false} IncludedHashesAppend(a: seq<VendorSummary>, b: seq<VendorSummary>, m: Manifest)
    ensures IncludedHashes(a + b, m) == IncludedHashes(a, m) + IncludedHashes(b, m)
  {
    if |a| == 0 {
      assert a + b == b;
    } else {
      assert (a + b)[0] == a[0];
      assert (a + b)[1..] == a[1..] + b;
      IncludedHashesAppend(a[1..], b, m);
    }
  }

  /** `getItemsForSale`: the union of the sale items of every included
      vendor, each snapshot taken through the cache. */
  function ItemsForSale(vendors: seq<VendorSummary>, m: Manifest, cache: Cache, env: Env): (p: Pass)
    ensures p.items.Success? <==>
      forall i :: 0 <= i < |vendors| && Included(vendors[i], m) ==> Get(cache, env, vendors[i].hash).result.Success?
    ensures forall k :: k in cache && k !in IncludedHashes(vendors, m) ==> k in p.cache && p.cache[k] == cache[k]
  {
    UnionOfSalesSpec(IncludedHashes(vendors, m), cache, env);
    IncludedResolve(vendors, m, cache, env);
    UnionOfSales(IncludedHashes(vendors, m), cache, env)
  }

  /** The included vendors are exactly the listed ones of the union. */
  lemma IncludedResolve(vendors: seq<VendorSummary>, m: Manifest, cache: Cache, env: Env)
    ensures AllResolve(IncludedHashes(vendors, m), cache, env) <==>
      forall i :: 0 <= i < |vendors| && Included(vendors[i], m) ==> Get(cache, env, vendors[i].hash).result.Success?
  {
    var hs := IncludedHashes(vendors, m);
    if forall i :: 0 <= i < |vendors| && Included(vendors[i], m) ==> Get(cache, env, vendors[i].hash).result.Success? {
      forall v | v in hs ensures Get(cache, env, v).result.Success? {
        var i :| 0 <= i < |vendors| && Included(vendors[i], m) && vendors[i].hash == v;
      }
    }
  }

  lemma IncludedSoldBy(vendors: seq<VendorSummary>, m: Manifest, cache: Cache, env: Env, h: ItemHash)
    ensures SoldBy(IncludedHashes(vendors, m), cache, env, h) <==>
      exists i :: 0 <= i < |vendors| && Included(vendors[i], m) && Sells(cache, env, vendors[i].hash, h)
  {
    var hs := IncludedHashes(vendors, m);
    if SoldBy(hs, cache, env, h) {
      var v :| v in hs && Sells(cache, env, v, h);
      var i :| 0 <= i < |vendors| && Included(vendors[i], m) && vendors[i].hash == v;
    }
    if exists i :: 0 <= i < |vendors| && Included(vendors[i], m) && Sells(cache, env, vendors[i].hash, h) {
      var i :| 0 <= i < |vendors| && Included(vendors[i], m) && Sells(cache, env, vendors[i].hash, h);
      assert vendors[i].hash in hs;
    }
  }

  /** The pass succeeds iff every included vendor's snapshot can be
      obtained, and then an item is for sale iff some enabled vendor whose
      identifier is not blacklisted lists it in some sale category. */
  lemma ItemsForSaleSpec(vendors: seq<VendorSummary>, m: Manifest, cache: Cache, env: Env)
    ensures ItemsForSale(vendors, m, cache, env).items.Success? <==>
      forall i :: 0 <= i < |vendors| && Included(vendors[i], m) ==> Get(cache, env, vendors[i].hash).result.Success?
    ensures ItemsForSale(vendors, m, cache, env).items.Success? ==>
      forall h :: h in ItemsForSale(vendors, m, cache, env).items.value <==>
        exists i :: 0 <= i < |vendors| && Included(vendors[i], m) && Sells(cache, env, vendors[i].hash, h)
  {
    UnionOfSalesSpec(IncludedHashes(vendors, m), cache, env);
    IncludedResolve(vendors, m, cache, env);
    forall h ensures SoldBy(IncludedHashes(vendors, m), cache, env, h) <==>
        exists i :: 0 <= i < |vendors| && Included(vendors[i], m) && Sells(cache, env, vendors[i].hash, h) {
      IncludedSoldBy(vendors, m, cache, env, h);
    }
  }

  /** Adding a disabled or blacklisted vendor anywhere in the summary
      changes nothing: not the result, not the cache. */
  lemma ExcludedVendorChangesNothing(vendors: seq<VendorSummary>, k: nat, v: VendorSummary, m: Manifest, cache: Cache, env: Env)
    requires k <= |vendors|
    requires !v.enabled || m.vendor(v.hash).identifier in VendorIdentifierBlacklist
    ensures ItemsForSale(vendors[..k] + [v] + vendors[k..], m, cache, env) == ItemsForSale(vendors, m, cache, env)
  {
    var a, b := vendors[..k], vendors[k..];
    IncludedHashesAppend(a + [v], b, m);
    IncludedHashesAppend(a, [v], m);
    assert [v][1..] == [];
    assert IncludedHashes([v], m) == IncludedHashes([], m) == [];
    IncludedHashesAppend(a, b, m);
    assert a + b == vendors;
    assert IncludedHashes(a + [v] + b, m) == IncludedHashes(vendors, m);
  }

  /** The verdict and the union do not depend on the order of the summary. */
  lemma SummaryOrderIrrelevant(a: seq<VendorSummary>, b: seq<VendorSummary>, m: Manifest, cache: Cache, env: Env)
    requires forall v :: v in a <==> v in b
    ensures ItemsForSale(a, m, cache, env).items.Success? <==> ItemsForSale(b, m, cache, env).items.Success?
    ensures ItemsForSale(a, m, cache, env).items.Success? ==>
      ItemsForSale(a, m, cache, env).items.value == ItemsForSale(b, m, cache, env).items.value
  {
    var ha := IncludedHashes(a, m);
    var hb := IncludedHashes(b, m);
    forall h ensures h in ha <==> h in hb {
      if h in ha {
        var i :| 0 <= i < |a| && Included(a[i], m) && a[i].hash == h;
        assert a[i] in b;
      }
      if h in hb {
        var i :| 0 <= i < |b| && Included(b[i], m) && b[i].hash == h;
        assert b[i] in a;
      }
    }
    VendorOrderIrrelevant(ha, hb, cache, env);
  }

  /** One displayed item: description, icon, missing iff some unlock status
      is unset, for sale iff missing and sold somewhere. */
  function AssembleItem(si: SaleItem, m: Manifest, failureStrings: seq<string>, forSale: set<ItemHash>): (r: Result<Item, Fatal>)
    ensures r.Success? <==> IndexesInRange(si.failureIndexes, failureStrings)
    ensures r.Success? ==>
      r.value.description == ItemDescription(m.item(si.itemHash).name, si.failureIndexes, failureStrings).value &&
      r.value.icon == IconUrl(m.item(si.itemHash).icon)
    ensures r.Success? ==>
      (r.value.missing <==> exists i :: 0 <= i < |si.unlockStatuses| && !si.unlockStatuses[i].isSet)
    ensures r.Success? ==> (r.value.forSale <==> r.value.missing && si.itemHash in forSale)
  {
    var def := m.item(si.itemHash);
    var description :- ItemDescription(def.name, si.failureIndexes, failureStrings);
    var missing := Missing(si);
    Success(Item(description, IconUrl(def.icon), missing, missing && si.itemHash in forSale))
  }

  /** Items of one category, in upstream order; the first bad item is fatal. */
  function AssembleItems(items: seq<SaleItem>, m: Manifest, failureStrings: seq<string>, forSale: set<ItemHash>): (r: Result<seq<Item>, Fatal>)
    ensures r.Success? <==> forall i :: 0 <= i < |items| ==> AssembleItem(items[i], m, failureStrings, forSale).Success?
    ensures r.Success? ==> |r.value| == |items|
    ensures r.Success? ==> forall i :: 0 <= i < |items| ==> r.value[i] == AssembleItem(items[i], m, failureStrings, forSale).value
  {
    if |items| == 0 then Success([])
    else
      var first := AssembleItem(items[0], m, failureStrings, forSale);
      if first.Failure? then Failure(first.error)
      else
        var rest := AssembleItems(items[1..], m, failureStrings, forSale);
        assert forall i :: 1 <= i < |items| ==> items[i] == items[1..][i - 1];
        if rest.Failure? then Failure(rest.error)
        else Success([first.value] + rest.value)
  }

  /** Categories in upstream order, each titled as upstream. */
  function AssembleCategories(cats: seq<SaleItemCategory>, m: Manifest, failureStrings: seq<string>, forSale: set<ItemHash>): (r: Result<seq<Category>, Fatal>)
    ensures r.Success? <==> forall i :: 0 <= i < |cats| ==> AssembleItems(cats[i].saleItems, m, failureStrings, forSale).Success?
    ensures r.Success? ==> |r.value| == |cats|
    ensures r.Success? ==> forall i :: 0 <= i < |cats| ==>
      r.value[i] == Category(cats[i].title, AssembleItems(cats[i].saleItems, m, failureStrings, forSale).value)
  {
    if |cats| == 0 then Success([])
    else
      var first := AssembleItems(cats[0].saleItems, m, failureStrings, forSale);
      if first.Failure? then Failure(first.error)
      else
        var rest := AssembleCategories(cats[1..], m, failureStrings, forSale);
        assert forall i :: 1 <= i < |cats| ==> cats[i] == cats[1..][i - 1];
        if rest.Failure? then Failure(rest.error)
        else Success([Category(cats[0].title, first.value)] + rest.value)
  }

  /** The outcome of one kiosk request: the page data (or the fatal
      condition) and the cache afterwards. */
  datatype Status = Status(data: Result<Data, Fatal>, cache: Cache)

  /** `FetchKioskStatus`: fetch the target vendor, compute the for-sale set
      from the all-vendors summary, and annotate every sale item. */
  function FetchKioskStatus(
    user: string, target: VendorHash, summary: Result<seq<VendorSummary>, Fatal>,
    m: Manifest, cache: Cache, env: Env): (k: Status)
    ensures k.data.Success? ==>
      env.fetch(target).Success? && summary.Success? &&
      ItemsForSale(summary.value, m, cache, env).items.Success?
    ensures k.data.Success? ==>
      k.data.value.title == m.vendor(target).name && k.data.value.user == user &&
      |k.data.value.categories| == |env.fetch(target).value.categories|
    ensures k.data.Success? ==>
      var forSale := ItemsForSale(summary.value, m, cache, env);
      k.cache == forSale.cache &&
      AssembleCategories(env.fetch(target).value.categories, m, m.vendor(target).failureStrings, forSale.items.value).Success? &&
      k.data.value.categories ==
        AssembleCategories(env.fetch(target).value.categories, m, m.vendor(target).failureStrings, forSale.items.value).value
    ensures k.data.Success? <==>
      env.fetch(target).Success? && summary.Success? &&
      ItemsForSale(summary.value, m, cache, env).items.Success? &&
      AssembleCategories(env.fetch(target).value.categories, m, m.vendor(target).failureStrings,
                         ItemsForSale(summary.value, m, cache, env).items.value).Success?
    // the target vendor is fetched directly and does not touch the cache
    ensures env.fetch(target).Failure? ==> k == Status(Failure(env.fetch(target).error), cache)
    ensures env.fetch(target).Success? && summary.Failure? ==> k == Status(Failure(summary.error), cache)
    ensures env.fetch(target).Success? && summary.Success? ==> k.cache == ItemsForSale(summary.value, m, cache, env).cache
  {
    match env.fetch(target)
    case Failure(e) => Status(Failure(e), cache)
    case Success(snapshot) =>
      var vendorDefinition := m.vendor(target);
      match summary
      case Failure(e) => Status(Failure(e), cache)
      case Success(vendors) =>
        var p := ItemsForSale(vendors, m, cache, env);
        match p.items
        case Failure(e) => Status(Failure(e), p.cache)
        case Success(forSale) =>
          var cats := AssembleCategories(snapshot.categories, m, vendorDefinition.failureStrings, forSale);
          match cats
          case Failure(e) => Status(Failure(e), p.cache)
          case Success(categories) => Status(Success(Data(vendorDefinition.name, user, categories)), p.cache)
  }

  /** `Category.MissingAndForSale`: some item is both missing and for sale. */
  function CategoryMissingAndForSale(items: seq<Item>): (r: bool)
    ensures r <==> exists i :: 0 <= i < |items| && items[i].missing && items[i].forSale
  {
    if |items| == 0 then false
    else if items[0].missing && items[0].forSale then true
    else
      var r := CategoryMissingAndForSale(items[1..]);
      assert r <==> exists i :: 0 <= i < |items| && items[i].missing && items[i].forSale by {
        if r {
          var j :| 0 <= j < |items[1..]| && items[1..][j].missing && items[1..][j].forSale;
          assert items[1..][j] == items[j + 1];
        }
        if exists i :: 0 <= i < |items| && items[i].missing && items[i].forSale {
          var i :| 0 <= i < |items| && items[i].missing && items[i].forSale;
          assert items[1..][i - 1] == items[i];
        }
      }
      r
  }

  /** `Data.MissingAndForSale`: some category has such an item. */
  function MissingAndForSale(cats: seq<Category>): (r: bool)
    ensures r <==> exists i, j :: (0 <= i < |cats| && 0 <= j < |cats[i].items| &&
                                   cats[i].items[j].missing && cats[i].items[j].forSale)
  {
    if |cats| == 0 then false
    else if CategoryMissingAndForSale(cats[0].items) then true
    else
      var r := MissingAndForSale(cats[1..]);
      assert r <==> exists i, j :: (0 <= i < |cats| && 0 <= j < |cats[i].items| &&
                                    cats[i].items[j].missing && cats[i].items[j].forSale) by {
        if r {
          var i, j :| 0 <= i < |cats[1..]| && 0 <= j < |cats[1..][i].items| &&
            cats[1..][i].items[j].missing && cats[1..][i].items[j].forSale;
          assert cats[1..][i] == cats[i + 1];
        }
        if (exists i, j :: 0 <= i < |cats| && 0 <= j < |cats[i].items| &&
              cats[i].items[j].missing && cats[i].items[j].forSale) {
          var i, j :| 0 <= i < |cats| && 0 <= j < |cats[i].items| &&
            cats[i].items[j].missing && cats[i].items[j].forSale;
          assert cats[1..][i - 1] == cats[i];
        }
      }
      r
  }

  /** A sale item the character lacks (some unlock status unset) and that
      some listed, enabled, non-blacklisted vendor sells. */
  ghost predicate WantedAndAvailable(si: SaleItem, vendors: seq<VendorSummary>, m: Manifest, cache: Cache, env: Env)
  {
    (exists u :: 0 <= u < |si.unlockStatuses| && !si.unlockStatuses[u].isSet) &&
    exists i :: 0 <= i < |vendors| && Included(vendors[i], m) && Sells(cache, env, vendors[i].hash, si.itemHash)
  }

  /** End to end: a successful kiosk page reports "missing and for sale"
      iff some sale item of the target vendor is wanted and available. */
  lemma KioskMissingAndForSale(
    user: string, target: VendorHash, summary: Result<seq<VendorSummary>, Fatal>,
    m: Manifest, cache: Cache, env: Env)
    requires FetchKioskStatus(user, target, summary, m, cache, env).data.Success?
    ensures var d := FetchKioskStatus(user, target, summary, m, cache, env).data.value;
      var cats := env.fetch(target).value.categories;
      MissingAndForSale(d.categories) <==>
        exists i, j :: 0 <= i < |cats| && 0 <= j < |cats[i].saleItems| &&
          WantedAndAvailable(cats[i].saleItems[j], summary.value, m, cache, env)
  {
    var d := FetchKioskStatus(user, target, summary, m, cache, env).data.value;
    var cats := env.fetch(target).value.categories;
    var vendors := summary.value;
    var forSale := ItemsForSale(vendors, m, cache, env).items.value;
    var fs := m.vendor(target).failureStrings;
    ItemsForSaleSpec(vendors, m, cache, env);
    var out := AssembleCategories(cats, m, fs, forSale).value;
    assert d.categories == out;
    forall i, j | 0 <= i < |cats| && 0 <= j < |cats[i].saleItems|
      ensures out[i].items[j].missing && out[i].items[j].forSale <==>
        WantedAndAvailable(cats[i].saleItems[j], vendors, m, cache, env)
    {
      var si := cats[i].saleItems[j];
      assert out[i].items[j] == AssembleItem(si, m, fs, forSale).value;
    }
    if MissingAndForSale(d.categories) {
      var i, j :| 0 <= i < |out| && 0 <= j < |out[i].items| &&
        out[i].items[j].missing && out[i].items[j].forSale;
      assert WantedAndAvailable(cats[i].saleItems[j], vendors, m, cache, env);
    }
  }

  /** An item with hash 42, one failure index and an unset unlock status is
      missing, and for sale exactly when the for-sale set holds its hash;
      its description carries the failure string. */
  lemma MissingItemScenario(m: Manifest)
    requires m.item(42).name == "Item"
    ensures var si := SaleItem(42, [0], [UnlockStatus(false)]);
      var fs := ["Requires completion of X"];
      AssembleItem(si, m, fs, {42}) ==
        Success(Item("Item" + "\n\n" + "Requires completion of X", IconUrl(m.item(42).icon), true, true)) &&
      AssembleItem(si, m, fs, {}) ==
        Success(Item("Item" + "\n\n" + "Requires completion of X", IconUrl(m.item(42).icon), true, false))
  {
    var si := SaleItem(42, [0], [UnlockStatus(false)]);
    var fs := ["Requires completion of X"];
    assert [0][1..] == [];
    assert FailureLines([0], fs).value == fs;
    assert Text.Join(fs, Newline) == fs[0];
    assert Missing(si);
    assert ItemDescription("Item", [0], fs) == Success("Item" + Paragraph + fs[0]);
    assert AssembleItem(si, m, fs, {42}).value.forSale;
    assert !AssembleItem(si, m, fs, {}).value.forSale;
  }
}

=== FILE: legacy_kiosk.dfy ===
/** The oldest kiosk page: an item is owned iff it has no failure indexes,
    and a non-owned item is annotated with its first failure string only.
    Item and failure-string definitions come with the vendor response. */
module LegacyKiosk {
  import opened Outcomes
  import opened Destiny
  import ItemStatus
  import Text

  /** The item definitions and vendor details shipped with the response. */
  datatype ItemDefinitionRow = ItemDefinitionRow(name: string, icon: string)

  datatype Definitions = Definitions(
    items: map<ItemHash, ItemDefinitionRow>,
    vendorDetails: map<VendorHash, seq<string>>)

  datatype VendorResponse = VendorResponse(snapshot: VendorSnapshot, definitions: Definitions)

  /** Go map reads yield the zero value for a missing key: an item without
      a definition shows an empty name and an empty icon path. */
  function ItemRow(d: Definitions, h: ItemHash): (r: ItemDefinitionRow)
    ensures h in d.items ==> r == d.items[h]
    ensures h !in d.items ==> r.name == "" && r.icon == ""
  {
    if h in d.items then d.items[h] else ItemDefinitionRow("", "")
  }

  /** The failure strings of the requested vendor; a vendor without
      details has none, so any failure index of its items is out of range. */
  function FailureStrings(d: Definitions, v: VendorHash): (r: seq<string>)
    ensures v in d.vendorDetails ==> r == d.vendorDetails[v]
    ensures v !in d.vendorDetails ==> |r| == 0
  {
    if v in d.vendorDetails then d.vendorDetails[v] else []
  }

  datatype Item = Item(description: string, icon: string, owned: bool)

  datatype Category = Category(title: string, items: seq<Item>)

  /** One displayed item: owned iff there is no failure index; otherwise
      the name, a blank line and the string of the first failure index,
      which must be in range. Later indexes are never read. */
  function AssembleItem(si: SaleItem, d: Definitions, failureStrings: seq<string>): (r: Result<Item, Fatal>)
    ensures r.Success? <==> |si.failureIndexes| == 0 || 0 <= si.failureIndexes[0] < |failureStrings|
    ensures r.Failure? ==> r.error == IndexOutOfRange
    ensures r.Success? ==> (r.value.owned <==> |si.failureIndexes| == 0)
    ensures r.Success? ==> r.value.icon == IconUrl(ItemRow(d, si.itemHash).icon)
    ensures r.Success? && r.value.owned ==> r.value.description == ItemRow(d, si.itemHash).name
    ensures r.Success? && !r.value.owned ==>
      r.value.description == ItemRow(d, si.itemHash).name + "\n\n" + failureStrings[si.failureIndexes[0]]
  {
    var row := ItemRow(d, si.itemHash);
    if |si.failureIndexes| == 0 then
      Success(Item(row.name, IconUrl(row.icon), true))
    else if !(0 <= si.failureIndexes[0] < |failureStrings|) then
      Failure(IndexOutOfRange)
    else
      Success(Item(row.name + ItemStatus.Paragraph + failureStrings[si.failureIndexes[0]], IconUrl(row.icon), false))
  }

  /** Read back line by line, a non-owned item's description is the name,
      an empty line and the first failure string. */
  lemma DescriptionLines(si: SaleItem, d: Definitions, failureStrings: seq<string>)
    requires AssembleItem(si, d, failureStrings).Success?
    requires !AssembleItem(si, d, failureStrings).value.owned
    requires ItemStatus.OneLine(ItemRow(d, si.itemHash).name)
    requires ItemStatus.OneLine(failureStrings[si.failureIndexes[0]])
    ensures Text.Split(AssembleItem(si, d, failureStrings).value.description, '\n') ==
      [ItemRow(d, si.itemHash).name, "", failureStrings[si.failureIndexes[0]]]
  {
    var name := ItemRow(d, si.itemHash).name;
    var f := failureStrings[si.failureIndexes[0]];
    assert name + ItemStatus.Paragraph + f == name + ['\n'] + ("" + ['\n'] + f);
    Text.SplitAtSeparator(name, '\n', "" + ['\n'] + f);
    Text.SplitAtSeparator("", '\n', f);
    assert "" + ['\n'] + f == [] + ['\n'] + f;
    Text.SplitNoSeparator(f, '\n');
  }

  /** With exactly one failure index the oldest and the later variants
      describe an item identically; with more, the oldest keeps only the
      first line of the later description. */
  lemma AgreesWithLaterVariant(si: SaleItem, d: Definitions, failureStrings: seq<string>)
    requires |si.failureIndexes| >= 1
    requires ItemStatus.IndexesInRange(si.failureIndexes, failureStrings)
    ensures var name := ItemRow(d, si.itemHash).name;
      var later := ItemStatus.ItemDescription(name, si.failureIndexes, failureStrings).value;
      var older := AssembleItem(si, d, failureStrings).value.description;
      older <= later && (|si.failureIndexes| == 1 ==> older == later)
  {
    var name := ItemRow(d, si.itemHash).name;
    var lines := ItemStatus.FailureLines(si.failureIndexes, failureStrings).value;
    if |lines| > 1 {
      Text.JoinCons(lines[0], lines[1..], ItemStatus.Newline);
      assert [lines[0]] + lines[1..] == lines;
    }
  }

  function AssembleItems(items: seq<SaleItem>, d: Definitions, failureStrings: seq<string>): (r: Result<seq<Item>, Fatal>)
    ensures r.Success? <==> forall i :: 0 <= i < |items| ==> AssembleItem(items[i], d, failureStrings).Success?
    ensures r.Success? ==> |r.value| == |items|
    ensures r.Success? ==> forall i :: 0 <= i < |items| ==> r.value[i] == AssembleItem(items[i], d, failureStrings).value
  {
    if |items| == 0 then Success([])
    else
      var first := AssembleItem(items[0], d, failureStrings);
      if first.Failure? then Failure(first.error)
      else
        var rest := AssembleItems(items[1..], d, failureStrings);
        assert forall i :: 1 <= i < |items| ==> items[i] == items[1..][i - 1];
        if rest.Failure? then Failure(rest.error)
        else Success([first.value] + rest.value)
  }

  function AssembleCategories(cats: seq<SaleItemCategory>, d: Definitions, failureStrings: seq<string>): (r: Result<seq<Category>, Fatal>)
    ensures r.Success? <==> forall i :: 0 <= i < |cats| ==> AssembleItems(cats[i].saleItems, d, failureStrings).Success?
    ensures r.Success? ==> |r.value| == |cats|
    ensures r.Success? ==> forall i :: 0 <= i < |cats| ==>
      r.value[i] == Category(cats[i].title, AssembleItems(cats[i].saleItems, d, failureStrings).value)
  {
    if |cats| == 0 then Success([])
    else
      var first := AssembleItems(cats[0].saleItems, d, failureStrings);
      if first.Failure? then Failure(first.error)
      else
        var rest := AssembleCategories(cats[1..], d, failureStrings);
        assert forall i :: 1 <= i < |cats| ==> cats[i] == cats[1..][i - 1];
        if rest.Failure? then Failure(rest.error)
        else Success([Category(cats[0].title, first.value)] + rest.value)
  }

  datatype AccountCharacter = AccountCharacter(id: string, className: string)

  datatype Account = Account(characters: seq<AccountCharacter>)

  datatype Character = Character(id: string, className: string, current: bool)

  /** Characters of every account, account by account, in stored order,
      the queried one marked current. */
  function Characters(accounts: seq<Account>, query: string): (r: seq<Character>)
    ensures forall i :: 0 <= i < |r| ==> (r[i].current <==> r[i].id == query)
  {
    if |accounts| == 0 then []
    else
      var chars := accounts[0].characters;
      seq(|chars|, i requires 0 <= i < |chars| => Character(chars[i].id, chars[i].className, chars[i].id == query))
        + Characters(accounts[1..], query)
  }

  /** Flattening respects account order: the characters of `a + b` are
      those of `a` followed by those of `b`. */
  lemma {:induction false} CharactersAppend(a: seq<Account>, b: seq<Account>, query: string)
    ensures Characters(a + b, query) == Characters(a, query) + Characters(b, query)
  {
    if |a| == 0 {
      assert a + b == b;
    } else {
      assert (a + b)[0] == a[0];
      assert (a + b)[1..] == a[1..] + b;
      CharactersAppend(a[1..], b, query);
    }
  }

  /** A single account lists its characters in order, nothing added. */
  lemma CharactersOfOneAccount(acc: Account, query: string)
    ensures |Characters([acc], query)| == |acc.characters|
    ensures forall i :: 0 <= i < |acc.characters| ==>
      Characters([acc], query)[i] == Character(acc.characters[i].id, acc.characters[i].className, acc.characters[i].id == query)
  {
    assert [acc][1..] == [];
  }

  datatype Selection = Show(id: string) | Redirect(id: string)

  /** An empty query redirects to the first character of the first account,
      even when a later account has characters and the first has none. */
  function SelectCharacter(query: string, accounts: seq<Account>): (r: Result<Selection, Fatal>)
    ensures query != "" ==> r == Success(Show(query))
    ensures r.Failure? <==> query == "" && (|accounts| == 0 || |accounts[0].characters| == 0)
    ensures query == "" && r.Success? ==> r.value == Redirect(accounts[0].characters[0].id)
  {
    if query != "" then Success(Show(query))
    else if |accounts| == 0 || |accounts[0].characters| == 0 then Failure(NoCharacter)
    else Success(Redirect(accounts[0].characters[0].id))
  }

  datatype Data = Data(title: string, user: string, characters: seq<Character>, categories: seq<Category>)

  datatype Page = Redirected(characterId: string) | Rendered(data: Data)

  /** `kioskHandler.ServeHTTP` from character selection to page data. The
      vendor's failure strings come from the vendor details of the response. */
  function ServeKiosk(
    query: string, user: string, accounts: seq<Account>,
    vendor: VendorHash, vendorName: string, resp: Result<VendorResponse, Fatal>): (r: Result<Page, Fatal>)
    ensures query == "" ==> r == (match SelectCharacter(query, accounts)
                                  case Failure(e) => Failure(e)
                                  case Success(s) => Success(Redirected(s.id)))
    ensures r.Success? && r.value.Rendered? ==>
      var d := r.value.data;
      query != "" && resp.Success? &&
      d.title == vendorName && d.user == user && d.characters == Characters(accounts, query) &&
      AssembleCategories(resp.value.snapshot.categories, resp.value.definitions,
                         FailureStrings(resp.value.definitions, vendor)).Success? &&
      d.categories == AssembleCategories(resp.value.snapshot.categories, resp.value.definitions,
                                         FailureStrings(resp.value.definitions, vendor)).value
    ensures query != "" ==>
      (r.Success? <==>
        resp.Success? &&
        AssembleCategories(resp.value.snapshot.categories, resp.value.definitions,
                           FailureStrings(resp.value.definitions, vendor)).Success?)
    ensures query != "" && r.Success? ==> r.value.Rendered?
    ensures query != "" && resp.Failure? ==> r == Failure(resp.error)
  {
    match SelectCharacter(query, accounts)
    case Failure(e) => Failure(e)
    case Success(Redirect(id)) => Success(Redirected(id))
    case Success(Show(characterId)) =>
      match resp
      case Failure(e) => Failure(e)
      case Success(vr) =>
        var failureStrings := FailureStrings(vr.definitions, vendor);
        var cats :- AssembleCategories(vr.snapshot.categories, vr.definitions, failureStrings);
        Success(Rendered(Data(vendorName, user, Characters(accounts, characterId), cats)))
  }
}

=== FILE: outcomes.dfy ===
/** Values that may be missing, and request steps that may abort.

    `Option` is a parse or decode that may produce nothing. `Result` is the
    outcome of a step of a request: `Failure` carries the reason the Go
    handler would have panicked, and `:-` ends the request at the first
    such reason, as the panic does. */
module Outcomes {

  datatype Option<+T> = None | Some(value: T)

  datatype Result<+T, +E> = Success(value: T) | Failure(error: E) {

    /** Whether the request stops here. */
    predicate IsFailure() {
      Failure?
    }

    /** The reason carried on to the caller unchanged. */
    function PropagateFailure<U>(): Result<U, E>
      requires Failure?
    {
      Failure(error)
    }

    /** The value the request continues with. */
    function Extract(): T
      requires Success?
    {
      value
    }
  }
}

=== FILE: status.dfy ===
/** Per-item status logic shared by the two later variants of the kiosk
    page: the item description built from failure strings, and the
    "missing" flag folded over unlock statuses. */
module ItemStatus {
  import opened Outcomes
  import opened Destiny
  import Text

  /** One displayed item of a kiosk page. */
  datatype Item = Item(description: string, icon: string, missing: bool, forSale: bool)

  datatype Category = Category(title: string, items: seq<Item>)

  /** True iff every failure index points into the failure strings. */
  predicate IndexesInRange(indexes: seq<int>, failureStrings: seq<string>)
  {
    forall i :: 0 <= i < |indexes| ==> 0 <= indexes[i] < |failureStrings|
  }

  /** The failure strings the indexes point at, in index order; an index
      outside the list is fatal. */
  function FailureLines(indexes: seq<int>, failureStrings: seq<string>): (r: Result<seq<string>, Fatal>)
    ensures r.Success? <==> IndexesInRange(indexes, failureStrings)
    ensures r.Failure? ==> r.error == IndexOutOfRange
    ensures r.Success? ==> |r.value| == |indexes|
    ensures r.Success? ==> forall i :: 0 <= i < |indexes| ==> r.value[i] == failureStrings[indexes[i]]
  {
    if |indexes| == 0 then Success([])
    else if !(0 <= indexes[0] < |failureStrings|) then Failure(IndexOutOfRange)
    else
      var rest := FailureLines(indexes[1..], failureStrings);
      if rest.Failure? then
        assert !IndexesInRange(indexes, failureStrings) by {
          var j :| 0 <= j < |indexes[1..]| && !(0 <= indexes[1..][j] < |failureStrings|);
          assert indexes[1..][j] == indexes[j + 1];
        }
        Failure(IndexOutOfRange)
      else Success([failureStrings[indexes[0]]] + rest.value)
  }

  const Paragraph: string := "\n\n"
  const Newline: string := "\n"

  /** `getItemDescription`: the item name alone when there are no failure
      indexes, else the name, a blank line, and the indexed failure strings
      one per line. */
  function ItemDescription(name: string, indexes: seq<int>, failureStrings: seq<string>): (r: Result<string, Fatal>)
    ensures r.Success? <==> IndexesInRange(indexes, failureStrings)
    ensures r.Failure? ==> r.error == IndexOutOfRange
    ensures |indexes| == 0 ==> r == Success(name)
    ensures r.Success? ==> name <= r.value
    ensures r.Success? && |indexes| > 0 ==> name + Paragraph <= r.value
  {
    if |indexes| == 0 then Success(name)
    else
      var lines := FailureLines(indexes, failureStrings);
      if lines.Failure? then Failure(lines.error)
      else Success(name + Paragraph + Text.Join(lines.value, Newline))
  }

  /** A piece of text without line breaks. */
  predicate OneLine(s: string)
  {
    '\n' !in s
  }

  /** Reading a description back line by line gives the item name, then
      (when there are failure indexes) an empty line and exactly the indexed
      failure strings in order, provided none of them contains a line break. */
  lemma DescriptionLines(name: string, indexes: seq<int>, failureStrings: seq<string>)
    requires ItemDescription(name, indexes, failureStrings).Success?
    requires OneLine(name)
    requires forall i :: 0 <= i < |indexes| ==> OneLine(failureStrings[indexes[i]])
    ensures var lines := Text.Split(ItemDescription(name, indexes, failureStrings).value, '\n');
      if |indexes| == 0 then lines == [name]
      else (|lines| == |indexes| + 2 && lines[0] == name && lines[1] == "" &&
            forall i :: 0 <= i < |indexes| ==> lines[i + 2] == failureStrings[indexes[i]])
  {
    if |indexes| == 0 {
      Text.SplitNoSeparator(name, '\n');
    } else {
      var lines := FailureLines(indexes, failureStrings).value;
      var pieces := [name, ""] + lines;
      Text.JoinCons("", lines, Newline);
      assert [""] + lines == pieces[1..];
      Text.JoinCons(name, [""] + lines, Newline);
      assert Text.Join(pieces, Newline) == name + Paragraph + Text.Join(lines, Newline);
      forall i | 0 <= i < |pieces| ensures '\n' !in pieces[i] {
        if i >= 2 { assert pieces[i] == lines[i - 2]; }
      }
      Text.SplitJoin(pieces, '\n');
    }
  }

  /** The source's loop `missing = missing || !status.IsSet`, started from
      `acc`: true iff `acc` or some unlock status is unset. */
  function MissingFrom(statuses: seq<UnlockStatus>, acc: bool): (r: bool)
    ensures r <==> acc || exists i :: 0 <= i < |statuses| && !statuses[i].isSet
  {
    if |statuses| == 0 then acc
    else
      var r := MissingFrom(statuses[1..], acc || !statuses[0].isSet);
      assert r <==> acc || exists i :: 0 <= i < |statuses| && !statuses[i].isSet by {
        if exists i :: 0 <= i < |statuses[1..]| && !statuses[1..][i].isSet {
          var i :| 0 <= i < |statuses[1..]| && !statuses[1..][i].isSet;
          assert statuses[1..][i] == statuses[i + 1];
        }
        if exists i :: 0 <= i < |statuses| && !statuses[i].isSet {
          var i :| 0 <= i < |statuses| && !statuses[i].isSet;
          if i > 0 { assert statuses[1..][i - 1] == statuses[i]; }
        }
      }
      r
  }

  /** An item is missing iff one of its unlock statuses is unset. */
  predicate Missing(si: SaleItem)
  {
    MissingFrom(si.unlockStatuses, false)
  }

  /** Failure indexes play no part in the missing flag. */
  lemma MissingIgnoresFailureIndexes(si: SaleItem, indexes: seq<int>)
    ensures Missing(si) <==> Missing(si.(failureIndexes := indexes))
    ensures Missing(si) <==> exists i :: 0 <= i < |si.unlockStatuses| && !si.unlockStatuses[i].isSet
  {
  }
}

=== FILE: text.dfy ===
/** String joining as done by Go's `strings.Join`, and line splitting, its
    inverse when no piece contains the separator. */
module Text {

  /** `strings.Join(pieces, sep)`: the pieces in order with `sep` between
      consecutive pieces; the empty list joins to the empty string. */
  function Join(pieces: seq<string>, sep: string): (r: string)
  {
    if |pieces| == 0 then ""
    else if |pieces| == 1 then pieces[0]
    else pieces[0] + sep + Join(pieces[1..], sep)
  }

  /** Splits `s` at every occurrence of `c`; the pieces never contain `c`
      and there is always at least one piece. */
  function Split(s: string, c: char): (pieces: seq<string>)
    ensures |pieces| >= 1
    ensures forall i :: 0 <= i < |pieces| ==> c !in pieces[i]
  {
    if |s| == 0 then [""]
    else
      var rest := Split(s[1..], c);
      if s[0] == c then [""] + rest
      else [[s[0]] + rest[0]] + rest[1..]
  }

  /** A string without the separator is a single piece. */
  lemma {:induction false} SplitNoSeparator(s: string, c: char)
    requires c !in s
    ensures Split(s, c) == [s]
  {
    if |s| > 0 {
      assert c !in s[1..] by {
        forall k | 0 <= k < |s[1..]| ensures s[1..][k] != c {
          assert s[1..][k] == s[k + 1];
        }
      }
      SplitNoSeparator(s[1..], c);
      assert [s[0]] + s[1..] == s;
    }
  }

  /** The first piece ends at the first separator. */
  lemma {:induction false} SplitAtSeparator(a: string, c: char, b: string)
    requires c !in a
    ensures Split(a + [c] + b, c) == [a] + Split(b, c)
  {
    if |a| == 0 {
      assert a + [c] + b == [c] + b;
      assert ([c] + b)[1..] == b;
    } else {
      var s := a + [c] + b;
      assert s[0] == a[0];
      assert s[1..] == a[1..] + [c] + b;
      assert c !in a[1..] by {
        forall k | 0 <= k < |a[1..]| ensures a[1..][k] != c {
          assert a[1..][k] == a[k + 1];
        }
      }
      SplitAtSeparator(a[1..], c, b);
      assert [a[0]] + a[1..] == a;
    }
  }

  /** Splitting at `c` undoes joining with `c`, provided no piece contains
      `c` and there is at least one piece. */
  lemma {:induction false} SplitJoin(pieces: seq<string>, c: char)
    requires |pieces| >= 1
    requires forall i :: 0 <= i < |pieces| ==> c !in pieces[i]
    ensures Split(Join(pieces, [c]), c) == pieces
  {
    if |pieces| == 1 {
      SplitNoSeparator(pieces[0], c);
    } else {
      var tail := pieces[1..];
      assert forall i :: 0 <= i < |tail| ==> c !in tail[i] by {
        forall i | 0 <= i < |tail| ensures c !in tail[i] {
          assert tail[i] == pieces[i + 1];
        }
      }
      SplitJoin(tail, c);
      SplitAtSeparator(pieces[0], c, Join(tail, [c]));
      assert [pieces[0]] + tail == pieces;
    }
  }

  /** Joining a list that starts with `x` puts `x` first. */
  lemma JoinCons(x: string, rest: seq<string>, sep: string)
    requires |rest| >= 1
    ensures Join([x] + rest, sep) == x + sep + Join(rest, sep)
  {
    assert ([x] + rest)[1..] == rest;
  }
}

=== FILE: vendor_handler.dfy ===
/** The earlier kiosk page: the same description and missing logic, but the
    for-sale check unions a fixed list of selling vendors (no enabled or
    blacklist filter) and is evaluated once per source hash of the item. */
module VendorHandler {
  import opened Outcomes
  import opened Destiny
  import opened VendorCache
  import opened Availability
  import opened ItemStatus

  /** `sellingVendors`, by hash: Bounty Tracker, Cayde-6, Crucible,
      Cryptarch, Dead Orbit, Eris Morn, Eva Levante, Eververse, Future War
      Cult, Gunsmith, Ikora Rey, New Monarchy, Shaxx, Shipwright, The
      Speaker, Vanguard, Zavala. */
  const SellingVendors: seq<VendorHash> := [
    1527174714, 3003633346, 3658200622, 4269570979, 3611686524, 174528503,
    134701236, 3917130357, 1821699360, 570929315, 1575820975, 1808244981,
    3746647075, 459708109, 2680694281, 2668878854, 1990950]

  const BountyTracker: VendorHash := 1527174714

  /** The outcome of a for-sale check and the cache afterwards. */
  datatype Check = Check(result: Result<bool, Fatal>, cache: Cache)

  /** `sources.isForSale`: rebuilds the union over every selling vendor and
      looks the item up; the source hash plays no part. */
  function IsForSale(itemHash: ItemHash, sourceHash: u32, cache: Cache, env: Env): (c: Check)
    ensures c.result.Success? <==> AllResolve(SellingVendors, cache, env)
    ensures c.result.Success? ==> (c.result.value <==> SoldBy(SellingVendors, cache, env, itemHash))
    ensures SameAnswers(c.cache, cache, env)
  {
    var p := UnionOfSales(SellingVendors, cache, env);
    UnionOfSalesSpec(SellingVendors, cache, env);
    UnionStable(SellingVendors, cache, env);
    match p.items
    case Failure(e) => Check(Failure(e), p.cache)
    case Success(items) => Check(Success(itemHash in items), p.cache)
  }

  /** The bounty tracker counts as a selling vendor here, although the
      canonical variant blacklists it. */
  lemma BountyTrackerSells(itemHash: ItemHash, sourceHash: u32, cache: Cache, env: Env)
    requires AllResolve(SellingVendors, cache, env)
    requires Get(cache, env, BountyTracker).result.Success?
    requires itemHash in SnapshotItems(Get(cache, env, BountyTracker).result.value)
    ensures IsForSale(itemHash, sourceHash, cache, env).result == Success(true)
  {
    assert BountyTracker in SellingVendors;
    assert Sells(cache, env, BountyTracker, itemHash);
  }

  /** The loop `forSale = forSale || isForSale(itemHash, sourceHash)` over
      the item's source hashes; once true, `||` skips the remaining calls. */
  function ForSaleOverSources(itemHash: ItemHash, sources: seq<u32>, acc: bool, cache: Cache, env: Env): (c: Check)
    ensures |sources| == 0 ==> c == Check(Success(acc), cache)
    ensures acc ==> c == Check(Success(true), cache)
    ensures c.result.Success? <==> acc || |sources| == 0 || AllResolve(SellingVendors, cache, env)
    ensures c.result.Success? ==>
      (c.result.value <==> acc || (|sources| > 0 && SoldBy(SellingVendors, cache, env, itemHash)))
    ensures SameAnswers(c.cache, cache, env)
    decreases |sources|
  {
    if |sources| == 0 then Check(Success(acc), cache)
    else if acc then ForSaleOverSources(itemHash, sources[1..], true, cache, env)
    else
      var o := IsForSale(itemHash, sources[0], cache, env);
      if o.result.Failure? then o
      else
        var c := ForSaleOverSources(itemHash, sources[1..], o.result.value, o.cache, env);
        SameAnswersTransfer(SellingVendors, o.cache, cache, env);
        c
  }

  /** One displayed item and the cache afterwards. */
  datatype ItemPass = ItemPass(item: Result<Item, Fatal>, cache: Cache)

  /** The item loop body: description first, then missing, then (only when
      missing) the for-sale check over the item's source hashes. */
  function AssembleItem(si: SaleItem, m: Manifest, failureStrings: seq<string>, cache: Cache, env: Env): (o: ItemPass)
    ensures var def := m.item(si.itemHash);
      o.item.Success? <==>
        IndexesInRange(si.failureIndexes, failureStrings) &&
        (Missing(si) && |def.sourceHashes| > 0 ==> AllResolve(SellingVendors, cache, env))
    ensures o.item.Success? ==>
      o.item.value.description == ItemDescription(m.item(si.itemHash).name, si.failureIndexes, failureStrings).value &&
      o.item.value.icon == IconUrl(m.item(si.itemHash).icon)
    ensures o.item.Success? ==>
      (o.item.value.missing <==> exists i :: 0 <= i < |si.unlockStatuses| && !si.unlockStatuses[i].isSet)
    ensures o.item.Success? ==>
      (o.item.value.forSale <==>
        o.item.value.missing && |m.item(si.itemHash).sourceHashes| > 0 &&
        SoldBy(SellingVendors, cache, env, si.itemHash))
    ensures SameAnswers(o.cache, cache, env)
  {
    var def := m.item(si.itemHash);
    var description := ItemDescription(def.name, si.failureIndexes, failureStrings);
    if description.Failure? then ItemPass(Failure(description.error), cache)
    else
      var missing := Missing(si);
      if !missing then ItemPass(Success(Item(description.value, IconUrl(def.icon), false, false)), cache)
      else
        var c := ForSaleOverSources(si.itemHash, def.sourceHashes, false, cache, env);
        match c.result
        case Failure(e) => ItemPass(Failure(e), c.cache)
        case Success(forSale) => ItemPass(Success(Item(description.value, IconUrl(def.icon), true, forSale)), c.cache)
  }

  /** An item with no source hashes is never for sale, and a failure of
      the selling vendors cannot abort it. */
  lemma NoSourcesNeverForSale(si: SaleItem, m: Manifest, failureStrings: seq<string>, cache: Cache, env: Env)
    requires |m.item(si.itemHash).sourceHashes| == 0
    requires IndexesInRange(si.failureIndexes, failureStrings)
    ensures AssembleItem(si, m, failureStrings, cache, env).item.Success?
    ensures !AssembleItem(si, m, failureStrings, cache, env).item.value.forSale
    ensures AssembleItem(si, m, failureStrings, cache, env).cache == cache
  {
  }

  datatype ItemsPass = ItemsPass(items: Result<seq<Item>, Fatal>, cache: Cache)

  /** Items of one category in upstream order, threading the cache. */
  function AssembleItems(items: seq<SaleItem>, m: Manifest, failureStrings: seq<string>, cache: Cache, env: Env): (o: ItemsPass)
    ensures o.items.Success? <==>
      forall i :: 0 <= i < |items| ==> AssembleItem(items[i], m, failureStrings, cache, env).item.Success?
    ensures o.items.Success? ==> |o.items.value| == |items|
    ensures o.items.Success? ==> forall i :: 0 <= i < |items| ==>
      o.items.value[i] == AssembleItem(items[i], m, failureStrings, cache, env).item.value
    ensures SameAnswers(o.cache, cache, env)
    decreases |items|
  {
    if |items| == 0 then ItemsPass(Success([]), cache)
    else
      var first := AssembleItem(items[0], m, failureStrings, cache, env);
      if first.item.Failure? then ItemsPass(Failure(first.item.error), first.cache)
      else
        var rest := AssembleItems(items[1..], m, failureStrings, first.cache, env);
        forall i | 1 <= i < |items|
          ensures SameItem(AssembleItem(items[1..][i - 1], m, failureStrings, first.cache, env).item,
                           AssembleItem(items[i], m, failureStrings, cache, env).item)
        {
          assert items[i] == items[1..][i - 1];
          ItemAfterSameAnswers(items[i], m, failureStrings, first.cache, cache, env);
        }
        if rest.items.Failure? then ItemsPass(Failure(rest.items.error), rest.cache)
        else ItemsPass(Success([first.item.value] + rest.items.value), rest.cache)
  }

  /** Two item outcomes agree on success and, when successful, on the item. */
  predicate SameItem(a: Result<Item, Fatal>, b: Result<Item, Fatal>)
  {
    (a.Success? <==> b.Success?) && (a.Success? ==> a.value == b.value)
  }

  /** Two caches that answer alike assemble an item alike. */
  lemma ItemAfterSameAnswers(si: SaleItem, m: Manifest, failureStrings: seq<string>, c1: Cache, c2: Cache, env: Env)
    requires SameAnswers(c1, c2, env)
    ensures SameItem(AssembleItem(si, m, failureStrings, c1, env).item, AssembleItem(si, m, failureStrings, c2, env).item)
  {
    SameAnswersTransfer(SellingVendors, c1, c2, env);
  }

  predicate SameItems(a: Result<seq<Item>, Fatal>, b: Result<seq<Item>, Fatal>)
  {
    (a.Success? <==> b.Success?) && (a.Success? ==> a.value == b.value)
  }

  /** Two caches that answer alike assemble a whole category alike. */
  lemma ItemsAfterSameAnswersAll(items: seq<SaleItem>, m: Manifest, failureStrings: seq<string>, c1: Cache, c2: Cache, env: Env)
    requires SameAnswers(c1, c2, env)
    ensures SameItems(AssembleItems(items, m, failureStrings, c1, env).items, AssembleItems(items, m, failureStrings, c2, env).items)
  {
    forall i | 0 <= i < |items|
      ensures SameItem(AssembleItem(items[i], m, failureStrings, c1, env).item, AssembleItem(items[i], m, failureStrings, c2, env).item)
    {
      ItemAfterSameAnswers(items[i], m, failureStrings, c1, c2, env);
    }
  }

  /** Two caches that answer alike assemble every category alike. */
  lemma CategoriesAfterSameAnswers(cats: seq<SaleItemCategory>, m: Manifest, failureStrings: seq<string>, c1: Cache, c2: Cache, env: Env)
    requires SameAnswers(c1, c2, env)
    ensures forall i :: 0 <= i < |cats| ==>
      SameItems(AssembleItems(cats[i].saleItems, m, failureStrings, c1, env).items,
                AssembleItems(cats[i].saleItems, m, failureStrings, c2, env).items)
  {
    forall i | 0 <= i < |cats|
      ensures SameItems(AssembleItems(cats[i].saleItems, m, failureStrings, c1, env).items,
                        AssembleItems(cats[i].saleItems, m, failureStrings, c2, env).items)
    {
      ItemsAfterSameAnswersAll(cats[i].saleItems, m, failureStrings, c1, c2, env);
    }
  }

  datatype CategoriesPass = CategoriesPass(categories: Result<seq<Category>, Fatal>, cache: Cache)

  /** Categories in upstream order, threading the cache; the contract on
      contents is `AssembleCategoriesSpec`. */
  function AssembleCategories(cats: seq<SaleItemCategory>, m: Manifest, failureStrings: seq<string>, cache: Cache, env: Env): (o: CategoriesPass)
    ensures SameAnswers(o.cache, cache, env)
    decreases |cats|
  {
    if |cats| == 0 then CategoriesPass(Success([]), cache)
    else
      var first := AssembleItems(cats[0].saleItems, m, failureStrings, cache, env);
      if first.items.Failure? then CategoriesPass(Failure(first.items.error), first.cache)
      else
        var rest := AssembleCategories(cats[1..], m, failureStrings, first.cache, env);
        if rest.categories.Failure? then CategoriesPass(Failure(rest.categories.error), rest.cache)
        else CategoriesPass(Success([Category(cats[0].title, first.items.value)] + rest.categories.value), rest.cache)
  }

  /** The page succeeds iff every category assembles, one category per
      upstream category, each titled as upstream and holding its items. */
  lemma {:induction false} AssembleCategoriesSpec(cats: seq<SaleItemCategory>, m: Manifest, failureStrings: seq<string>, cache: Cache, env: Env)
    ensures var o := AssembleCategories(cats, m, failureStrings, cache, env);
      o.categories.Success? <==>
        forall i :: 0 <= i < |cats| ==> AssembleItems(cats[i].saleItems, m, failureStrings, cache, env).items.Success?
    ensures var o := AssembleCategories(cats, m, failureStrings, cache, env);
      o.categories.Success? ==> |o.categories.value| == |cats|
    ensures var o := AssembleCategories(cats, m, failureStrings, cache, env);
      o.categories.Success? ==> forall i :: 0 <= i < |cats| ==>
        o.categories.value[i] == Category(cats[i].title, AssembleItems(cats[i].saleItems, m, failureStrings, cache, env).items.value)
    decreases |cats|
  {
    if |cats| > 0 {
      var first := AssembleItems(cats[0].saleItems, m, failureStrings, cache, env);
      if first.items.Success? {
        var tail := cats[1..];
        AssembleCategoriesSpec(tail, m, failureStrings, first.cache, env);
        CategoriesAfterSameAnswers(tail, m, failureStrings, first.cache, cache, env);
        forall i | 1 <= i < |cats| ensures cats[i] == tail[i - 1] {
        }
      }
    }
  }

  /** A stored character of the Destiny account. */
  datatype StoredCharacter = StoredCharacter(id: string, className: string)

  /** A character as listed on the page. */
  datatype Character = Character(id: string, className: string, current: bool)

  /** The characters in stored order, the requested one marked current. */
  function CharacterList(chars: seq<StoredCharacter>, current: string): (r: seq<Character>)
    ensures |r| == |chars|
    ensures forall i :: 0 <= i < |chars| ==> r[i].id == chars[i].id && r[i].className == chars[i].className
    ensures forall i :: 0 <= i < |chars| ==> (r[i].current <==> chars[i].id == current)
  {
    seq(|chars|, i requires 0 <= i < |chars| => Character(chars[i].id, chars[i].className, chars[i].id == current))
  }

  /** With distinct stored ids, at most one listed character is current,
      and exactly one when the requested id is stored. */
  lemma OneCurrentCharacter(chars: seq<StoredCharacter>, current: string)
    requires forall i, j :: 0 <= i < j < |chars| ==> chars[i].id != chars[j].id
    ensures var r := CharacterList(chars, current);
      forall i, j :: 0 <= i < j < |r| ==> !(r[i].current && r[j].current)
    ensures (exists i :: 0 <= i < |chars| && chars[i].id == current) ==>
      exists i :: 0 <= i < |chars| && CharacterList(chars, current)[i].current
  {
    if exists i :: 0 <= i < |chars| && chars[i].id == current {
      var i :| 0 <= i < |chars| && chars[i].id == current;
      assert CharacterList(chars, current)[i].current;
    }
  }

  /** Which character to show: the requested one, or (for an empty
      request) a redirect to the first stored character. */
  datatype Selection = Show(id: string) | Redirect(id: string)

  function SelectCharacter(query: string, chars: seq<StoredCharacter>): (r: Result<Selection, Fatal>)
    ensures query != "" ==> r == Success(Show(query))
    ensures query == "" && |chars| > 0 ==> r == Success(Redirect(chars[0].id))
    ensures r.Failure? <==> query == "" && |chars| == 0
  {
    if query != "" then Success(Show(query))
    else if |chars| == 0 then Failure(NoCharacter)
    else Success(Redirect(chars[0].id))
  }

  datatype Data = Data(
    title: string,
    user: string,
    characters: seq<Character>,
    currentCharacter: string,
    categories: seq<Category>)

  datatype Page = Redirected(characterId: string) | Rendered(data: Data)

  datatype Response = Response(page: Result<Page, Fatal>, cache: Cache)

  /** `VendorHandler.ServeHTTP` from character selection to page data. */
  function ServeVendor(
    query: string, user: string, chars: seq<StoredCharacter>,
    vendor: VendorHash, vendorName: string, m: Manifest, cache: Cache, env: Env): (o: Response)
    ensures query == "" ==> o.cache == cache && o.page == (if |chars| == 0 then Failure(NoCharacter) else Success(Redirected(chars[0].id)))
    ensures o.page.Success? && o.page.value.Rendered? ==>
      var d := o.page.value.data;
      query != "" && env.fetch(vendor).Success? &&
      d.title == vendorName && d.user == user && d.currentCharacter == query &&
      d.characters == CharacterList(chars, query) &&
      AssembleCategories(env.fetch(vendor).value.categories, m,
                         m.vendor(vendor).failureStrings, cache, env).categories.Success? &&
      d.categories == AssembleCategories(env.fetch(vendor).value.categories, m,
                                         m.vendor(vendor).failureStrings, cache, env).categories.value
    ensures query != "" ==>
      (o.page.Success? <==>
        env.fetch(vendor).Success? &&
        AssembleCategories(env.fetch(vendor).value.categories, m,
                           m.vendor(vendor).failureStrings, cache, env).categories.Success?)
    ensures query != "" && o.page.Success? ==> o.page.value.Rendered?
    // the page's own vendor is fetched directly and does not touch the cache
    ensures query != "" && env.fetch(vendor).Failure? ==> o == Response(Failure(env.fetch(vendor).error), cache)
    ensures SameAnswers(o.cache, cache, env)
  {
    match SelectCharacter(query, chars)
    case Failure(e) => Response(Failure(e), cache)
    case Success(Redirect(id)) => Response(Success(Redirected(id)), cache)
    case Success(Show(characterId)) =>
      match env.fetch(vendor)
      case Failure(e) => Response(Failure(e), cache)
      case Success(snapshot) =>
        var failureStrings := m.vendor(vendor).failureStrings;
        var cats := AssembleCategories(snapshot.categories, m, failureStrings, cache, env);
        match cats.categories
        case Failure(e) => Response(Failure(e), cats.cache)
        case Success(categories) =>
          var d := Data(vendorName, user, CharacterList(chars, characterId), characterId, categories);
          Response(Success(Rendered(d)), cats.cache)
  }
}
